=== FILE: README.md ===
# External-router bridge, modelled in Dafny

This project models the external-router bridge of the DTNME bundle daemon
(`servlib/routing/ExternalRouter.cc`) together with the one-shot DTPC
payload-aggregation timer (`servlib/dtpc/DtpcPayloadAggregationTimer.cc`).
The bridge lets an out-of-process router steer bundle forwarding over one
TCP connection. The model covers its sequential decision logic as pure
functions over immutable values:

- the wire format (`bytes.dfy`, `framing.dfy`): the "XCLT"/"XRTR" magic
  numbers and the 4-octet big-endian length prefix, the receiver loop as a
  parser over the whole byte stream, and the sender's frame encoding;
- the send side (`send_queue.dfy`): the FIFO send queue with its `size_t`
  byte counter, the sender loop, and the connection's posting gate;
- the single-slot connection policy (`connection_slot.dfy`);
- the inbound dispatcher (`dispatch.dfy`): `process_action` and the eight
  version-0 handlers, run against a store of bundles and links (`domain.dfy`);
- the outbound side (`messages.dfy`, `reports.dfy`, `bridge.dfy`): bundle and
  link snapshots, the paginated bundle report, the link report, the
  `handle_event` gate, start-up and shutdown;
- the keepalive timer (`hello_timer.dfy`) and the aggregation timer
  (`aggregation_timer.dfy`), both over an abstract scheduler state
  (`shared_timers.dfy`).

Three behaviours of the code that a reader might not expect are modelled as written:

- A bundle query with no pending bundles sends no report message at all,
  because the loop at servlib/routing/ExternalRouter.cc lines 734-777 never runs when the pending list is empty.
- A delete request marks a found bundle as being deleted manually even when
  it has expired. Only the delete request itself is withheld for an expired
  bundle (servlib/routing/ExternalRouter.cc lines 1225-1238).
- The aggregation timer's `cancel` answers whatever the scheduler answers,
  so a first call is not guaranteed to answer true. Only a call made
  without a self-reference is guaranteed to answer false, and so is any
  call after a first one (servlib/dtpc/DtpcPayloadAggregationTimer.cc
  lines 61-74).

## Model

| member | source | states |
|---|---|---|
| `Bytes.DecodeEncodeBE32` | servlib/routing/ExternalRouter.cc:1531 | ntohl of an htonl-encoded 32-bit value gives the value back |
| `Bytes.EncodeDecodeBE32` | servlib/routing/ExternalRouter.cc:1514-1517 | every four-octet group is the big-endian encoding of the value it is read as |
| `Framing.EncodeFrame` | servlib/routing/ExternalRouter.cc:1677-1690 | a frame is 4 + n octets: the size, truncated to 32 bits, in network order, then the payload unchanged |
| `Bytes.EncodeBE32Injective` | servlib/routing/ExternalRouter.cc:1514-1522 | two 32-bit values with the same four-octet encoding are equal, so the magic check on the decoded value accepts exactly the client magic's own four octets |
| `Framing.Receive` | servlib/routing/ExternalRouter.cc:1491-1522 | when fewer than four octets arrive, or the first four are not the client magic 0x58434C54, nothing is posted; the connection ends as a bad-magic abort exactly in the second case |
| `Framing.ReadFrames` | servlib/routing/ExternalRouter.cc:1530-1559 | the frame loop after the handshake never reports a bad magic; reading ends only at end of stream or at a length of 2^31 - 1 or more, the lengths whose `length + 1` reservation (line 1536) overflows an `int` |
| `Framing.ReadFramesBounds` | servlib/routing/ExternalRouter.cc:1530-1559 | every posted message is non-empty and below 2^31 - 1 octets, and all of them plus their headers fit in the stream |
| `Framing.ReadFramesFrame` | servlib/routing/ExternalRouter.cc:1531-1559 | a frame with length L > 0 followed by L octets posts exactly those octets as one message, ahead of whatever the rest of the stream posts |
| `Framing.ReadFramesStopsAtOverflow` | servlib/routing/ExternalRouter.cc:1530-1536 | a frame length of 2^31 - 1 or more, where the source's `int` arithmetic overflows, stops reading with nothing of that frame or after it posted |
| `Framing.ReadFramesEmptyFrame` | servlib/routing/ExternalRouter.cc:1531-1534 | a zero-length frame posts nothing and reading continues with the next length |
| `Framing.ReadFramesEncodeFrames` | servlib/routing/ExternalRouter.cc:1531-1559 | reading back the sender's encoding of a message list posts its non-empty messages in order |
| `Framing.RoundTrip` | servlib/routing/ExternalRouter.cc:1677-1690 | the client magic followed by the sender's framing of a message list posts exactly the non-empty messages, in order, and ends at end of stream |
| `Framing.ReadFramesPrefix` | servlib/routing/ExternalRouter.cc:1491-1559 | what has been posted after any prefix of the stream is a prefix of what the whole stream posts: messages are posted only when complete, in arrival order |
| `SendQueues.Post` | servlib/routing/ExternalRouter.cc:1605-1617 | a posted message goes to the back of the queue and the counter stays equal to the queued length modulo 2^64 |
| `SendQueues.SendNext` | servlib/routing/ExternalRouter.cc:1672-1697 | the sender writes the oldest message's frame, removes it, and the counter stays equal to the queued length; an empty queue gives nothing to write |
| `SendQueues.Flush` | servlib/routing/ExternalRouter.cc:1620-1702 | the sender's output is the server magic 0x58525452 followed by one frame per queued message in queue order, after which the counter is zero |
| `SendQueues.ReplayFifo` | servlib/routing/ExternalRouter.cc:1605-1697 | under any interleaving of posts and sends, the bytes written so far followed by the frames still queued are the frames of all posted messages in posting order |
| `SendQueues.ConnectionPost` | servlib/routing/ExternalRouter.cc:1438-1457 | a message reaches the sender's queue only while the connection is not stopping and its sender exists; otherwise the connection is unchanged |
| `ConnectionSlot.Accept` | servlib/routing/ExternalRouter.cc:1324-1340 | a new connection is installed exactly when the slot is empty; otherwise its socket is closed and the slot is unchanged |
| `ConnectionSlot.ClientClosed` | servlib/routing/ExternalRouter.cc:1354-1368 | the slot is freed only by the connection that holds it; any other report leaves it as it was and logs a critical message |
| `ConnectionSlot.PostToSend` | servlib/routing/ExternalRouter.cc:1372-1385 | an outbound message goes to the installed connection, and is dropped exactly when none is installed |
| `ConnectionSlot.ServerPostToSend` | servlib/routing/ExternalRouter.cc:903-913 | after the module server has let go of its listener interface every outbound message is dropped |
| `ConnectionSlot.InstalledClientStays` | servlib/routing/ExternalRouter.cc:1324-1368 | the installed connection keeps the slot against any later accepts and any closes reported by other connections |
| `ConnectionSlot.SlotHolderWasAccepted` | servlib/routing/ExternalRouter.cc:1324-1368 | whoever holds the slot held it at the start or was accepted, and was accepted again after any close it reported |
| `Dispatch.ProcessAction` | servlib/routing/ExternalRouter.cc:958-1056 | success exactly when the header decodes and names one of the eight defined types at version 0; otherwise nothing is posted, the store is unchanged, and the type and version are logged when readable |
| `Dispatch.Handle` | servlib/routing/ExternalRouter.cc:982-1040 | link and bundle queries post one query request; a shutdown request logs that shutdown is starting, runs the console "shutdown" command, leaves the console event loop and runs "shutdown" again (its handler, lines 1259-1261); only the delete handler changes the store |
| `Dispatch.TransmitBundle` | servlib/routing/ExternalRouter.cc:1063-1095 | exactly one forward request for the given bundle and link is posted iff the bundle is found and not expired; nothing is logged when it is not |
| `Dispatch.TakeCustody` | servlib/routing/ExternalRouter.cc:1174-1198 | exactly one take-custody request is posted iff the bundle is found and not expired; otherwise one warning names the bundle |
| `Dispatch.CloseLink` | servlib/routing/ExternalRouter.cc:1149-1170 | a state change to CLOSED with reason NO_INFO is posted at the head of the queue iff the link is found; otherwise one warning names the link |
| `Dispatch.ToAttributes` | servlib/routing/ExternalRouter.cc:1119-1136 | the attributes, read back as pairs, are exactly the pairs with a bool, uint, int or string value, in order; every other pair costs one warning |
| `Dispatch.ReconfigureLink` | servlib/routing/ExternalRouter.cc:1099-1144 | a reconfigure request for the link is posted at head iff the link is found, carrying the known-type pairs in order, and then logs exactly one warning per pair of unknown value type, naming its key, in order; otherwise one error names the link |
| `Dispatch.DeleteEachMarks` | servlib/routing/ExternalRouter.cc:1217-1227 | every found id is marked as being deleted manually, expired or not, and no other bundle changes |
| `Dispatch.DeleteEachRequests` | servlib/routing/ExternalRouter.cc:1217-1245 | one delete request per listed id whose bundle is found and not expired, in list order, and one warning per unknown id, in list order |
| `Dispatch.DeleteEachSplit` | servlib/routing/ExternalRouter.cc:1217-1245 | ids are handled independently: a list is processed as its first part followed by its second part against the updated store |
| `Dispatch.DeleteBundles` | servlib/routing/ExternalRouter.cc:1202-1247 | the delete handler's requests, warnings and store marks are those of its id list; undecodable fields log one error and change nothing |
| `Dispatch.TransmitScenario` | servlib/routing/ExternalRouter.cc:1077-1089 | a transmit request for live bundle 42 on link "ltp-1" posts exactly one forward request for it |
| `Dispatch.DeleteScenario` | servlib/routing/ExternalRouter.cc:1217-1245 | deleting [1, 2, 3] with bundle 2 unknown posts deletes for 1 and 3 only and warns once, about 2 |
| `Reports.ToLower` | servlib/routing/ExternalRouter.cc:178-184 | only 'A' to 'Z' change, each to its lowercase letter, and no uppercase ASCII letter comes out |
| `Reports.Lowercase` | servlib/routing/ExternalRouter.cc:178-184 | the result has the same length, each uppercase ASCII letter becomes its lowercase letter, every other character is kept, and no uppercase ASCII letter remains |
| `Reports.LowercaseIdempotent` | servlib/routing/ExternalRouter.cc:178-184 | lowercasing an already lowercased string changes nothing |
| `Reports.LowercaseIgnoresCase` | servlib/routing/ExternalRouter.cc:178-184 | two strings that differ only in the case of ASCII letters lowercase to the same string |
| `Reports.CanDeleteBundle` | servlib/routing/ExternalRouter.cc:188-229 | the guard chain as written (deletable once transmitted or delivered, while no local or bundle-in-bundle custody is held and the bundle is not ECOS-critical); no contract is claimed for it |
| `Reports.AcceptCustody` | servlib/routing/ExternalRouter.cc:232-240 | custody is never accepted on arrival |
| `Reports.ReasonToStr` | servlib/routing/ExternalRouter.cc:805-819 | the name is empty exactly for an unlisted reason, and each listed reason's name reads back as that reason |
| `Reports.ReasonNamesDistinct` | servlib/routing/ExternalRouter.cc:805-819 | distinct listed reasons have distinct names |
| `Reports.SummarizeBundle` | servlib/routing/ExternalRouter.cc:741-768 | a bundle snapshot keeps the id and reports custody as held when either local or bundle-in-bundle custody is |
| `Reports.SummarizeLink` | servlib/routing/ExternalRouter.cc:612-686 | a link snapshot has the lowercased state; address and port are set exactly for tcp, udp and ltpudp links whose parameters are of that family, the rate exactly for udp and ltpudp |
| `Reports.LinkEntries` | servlib/routing/ExternalRouter.cc:612-692 | the link report has one entry per link with a contact, in order, each that link's snapshot; links without a contact are skipped |
| `Reports.Paginate` | servlib/routing/ExternalRouter.cc:734-777 | the chunks concatenate back to the input, each holds 1 to 10,000 items, all but the last hold exactly 10,000, and there are ceil(N / 10,000) of them |
| `Reports.BundleReport` | servlib/routing/ExternalRouter.cc:711-778 | N pending bundles give ceil(N / 10,000) bundle report messages of 1 to 10,000 snapshots each, none when N is 0 |
| `Bridge.EventMessages` | servlib/routing/ExternalRouter.cc:255-692 | each reported event yields exactly one message (the bundle report its pages), custody signals and unreported events none, contact-up one link-opened message with that link's snapshot |
| `Bridge.HandleEvent` | servlib/routing/ExternalRouter.cc:246-251 | an event is handled only when the bridge is initialised and not shutting down; otherwise it yields no message |
| `Bridge.Initialize` | servlib/routing/ExternalRouter.cc:105-143 | start-up sends one hello with zero counters and starts the keepalive timer with the 30-second interval |
| `Bridge.Shutdown` | servlib/routing/ExternalRouter.cc:146-162 | for a started bridge that has not shut down yet, shutdown stops event handling, cancels the keepalive timer and sends the "shuttingDown" alert |
| `Bridge.ShutdownSilences` | servlib/routing/ExternalRouter.cc:146-162 | after a started bridge shuts down, no event and no keepalive firing sends anything |
| `Bridge.Lifecycle` | servlib/routing/ExternalRouter.cc:105-162 | a new bridge ignores events, once initialised it sends what each handler sends, and after shutdown it ignores them again |
| `Bridge.CustodyReleased` | servlib/routing/ExternalRouter.cc:366-372 | a custody release is reported as one custody-signal message with the bundle id, outcome and reason unchanged; it is a direct call and does not pass the event gate |
| `HelloTimers.Start` | servlib/routing/ExternalRouter.cc:1716-1725 | an interval of 0 seconds becomes 1, any other is kept, and the first firing is scheduled that many thousand milliseconds ahead |
| `HelloTimers.Cancel` | servlib/routing/ExternalRouter.cc:1728-1734 | with a self-reference the timer is cancelled with the scheduler; the self-reference is cleared in every case |
| `HelloTimers.Timeout` | servlib/routing/ExternalRouter.cc:1738-1748 | a firing of a timer that is not cancelled sends one hello with the current counters and reschedules with the same interval; a cancelled one sends nothing |
| `HelloTimers.KeepaliveRepeats` | servlib/routing/ExternalRouter.cc:1738-1748 | until cancelled, every firing sends exactly one hello carrying that firing's counters |
| `HelloTimers.SilentAfterCancel` | servlib/routing/ExternalRouter.cc:1728-1748 | once cancelled, no number of firings sends a hello |
| `HelloTimers.KeepaliveScenario` | servlib/routing/ExternalRouter.cc:1716-1748 | started, fired twice, cancelled and fired again: exactly two hellos |
| `AggregationTimers.NewTimer` | servlib/dtpc/DtpcPayloadAggregationTimer.cc:31-35 | a new timer carries its key and sequence counter, has no self-reference, and nothing is scheduled |
| `AggregationTimers.SetSelfRef` | servlib/dtpc/DtpcPayloadAggregationTimer.cc:38-43 | only the self-reference changes |
| `AggregationTimers.Start` | servlib/dtpc/DtpcPayloadAggregationTimer.cc:47-57 | the timer is scheduled iff it holds a self-reference, and then its `seconds` argument is passed on unscaled as the scheduler's millisecond delay; otherwise nothing changes and an error is reported |
| `AggregationTimers.StartInSeconds` | servlib/dtpc/DtpcPayloadAggregationTimer.cc:47-57 | corrected start: scheduled iff the timer holds a self-reference, with a delay of exactly `seconds` whole seconds |
| `AggregationTimers.StartUnitMismatch` | servlib/dtpc/DtpcPayloadAggregationTimer.cc:52 | as written and corrected start leave the timer in the same state, but for any non-zero `seconds` the written delay is a thousandth of the intended one |
| `AggregationTimers.Cancel` | servlib/dtpc/DtpcPayloadAggregationTimer.cc:61-74 | the self-reference is always cleared; without one the answer is false, and with one it is the scheduler's answer |
| `AggregationTimers.Timeout` | servlib/dtpc/DtpcPayloadAggregationTimer.cc:78-96 | exactly one expiration event carrying the key and sequence counter is posted iff the timer is not cancelled and holds its self-reference; the self-reference is cleared on every path |
| `AggregationTimers.SecondCancelFails` | servlib/dtpc/DtpcPayloadAggregationTimer.cc:61-74 | a second cancel answers false |
| `AggregationTimers.SecondTimeoutSilent` | servlib/dtpc/DtpcPayloadAggregationTimer.cc:84-96 | a second firing posts nothing |
| `AggregationTimers.RunPostsAtMostOncePerInstall` | servlib/dtpc/DtpcPayloadAggregationTimer.cc:31-96 | over any sequence of operations the key and sequence counter never change, every event carries them, and there is at most one event per installed self-reference |
| `AggregationTimers.NoEventAfterCancel` | servlib/dtpc/DtpcPayloadAggregationTimer.cc:61-96 | after cancel, no firing posts an event unless a self-reference is installed again |
| `AggregationTimers.AtMostOneExpiration` | servlib/dtpc/DtpcPayloadAggregationTimer.cc:31-96 | a timer whose self-reference is installed at most once posts at most one expiration event |

## Left out

- Sockets, `timeout_read`, `writeall` and the poll loops are left out. The peer's bytes are one finite sequence and writes are appends. Write failures, which the sender only logs, are not modelled.
- Threads, locks, stop flags and the bounded waits in the `do_shutdown` methods are left out. The slot's lock is taken to serialise its events, and that order is the order of a `SlotEvent` list.
- The bind/listen retry loop of the `ModuleServer` constructor is left out because it is operating-system I/O. So is the listener configuration (port 8001 on loopback).
- CBOR encoding and decoding of message bodies, and the numeric message-type codes, are left out. The interface header that defines them is not part of this model. The dispatcher takes a decoded header and decoded fields, and outbound messages stay as `ServerMsg` values.
- The bundle daemon, contact manager, Tcl console interpreter and `ERRegistration` are left out because they are foreign collaborators. They appear as a `Store` of bundles and link names, a pending list, a link list, and output request lists; the console's `exec_command` and `exit_event_loop` calls appear as `ShutdownCommand` and `ExitEventLoop` entries of that list.
- `Framing.ReadFrames`: a frame length of 2^31 - 1 or more ends the model's reading with `LengthOverflow`. The source stores the length in an `int`, so a length with the top bit set becomes negative, and 2^31 - 1 makes the `data_to_read + 1` reservation overflow. Both are undefined behaviour. The round-trip lemmas require every message to be shorter than 2^31 - 1 octets.
- `SendQueues.Post`: the `bytesMax` counter is modelled as written. It grows by the current total rather than recording a high-water mark, so no property is claimed for it. Both counters are assumed to start at zero.
- `SendQueues.Flush`: it takes a queue whose counter matches its contents. Every reachable queue satisfies this, because it starts empty and changes only through `Post` and `SendNext`. Discarding of still-queued messages on stop is not modelled.
- `SharedTimers`: the oasys scheduler is reduced to a pending flag and a cancelled flag. The assumption is that `cancel` answers whether a firing was pending. Clocks and the timer queue are left out.
- `HelloTimers.Start`: 32-bit overflow of `seconds * 1000` is not modelled. The configured interval is an unsigned 16-bit value (30), so the product stays far below 2^31.
- `Reports.ToLower`: only ASCII letters are folded, as `std::tolower` does in the "C" locale. Other locales are left out.
- `Reports.SummarizeLink`: the remote address is kept as its 32-bit value. Its dotted-quad rendering is not modelled. `Link::state_to_str` is taken as the link's `stateName`. The unfinished `ltpudpreplay` branch sets only the common fields, as the code does.
- The per-event handlers that do nothing (`(void) event; return;`), and `handle_custody_signal`, which deliberately sends nothing, are folded into `Unreported` and `CustodySignal`.
- `AggregationTimers.RunPostsAtMostOncePerInstall`, `AggregationTimers.NoEventAfterCancel` and `AggregationTimers.AtMostOneExpiration` run the corrected `StartInSeconds`. These lemmas do not observe the delay, and `StartUnitMismatch` shows both starts leave the timer in the same state for every input, so they hold for the code as written too.
- `Bridge.CustodyReleased`: the message is built as the handler builds it, and its delivery is not modelled. Sending goes through the module server, which exists only from start-up (servlib/routing/ExternalRouter.cc line 131) until shutdown (line 161). A release reported outside that window reaches an empty server pointer, and that case is left out.
- `Bridge.Shutdown`: it requires a bridge that was initialised and still holds its keepalive timer. Before start-up, or on a second call, the source reaches `hello_` and `srv_` through pointers that are not set yet or were already reset (servlib/routing/ExternalRouter.cc lines 150, 151, 160 and 161). What happens then is not modelled.

## Findings

| source | as written | input that shows it | evidently intended | confidence | as-written member | corrected member |
|---|---|---|---|---|---|---|
| servlib/dtpc/DtpcPayloadAggregationTimer.cc:47-52 | `start(int seconds)` passes `seconds` straight to `schedule_in`, which takes milliseconds (the keepalive timer passes `seconds_*1000` at servlib/routing/ExternalRouter.cc:1724) | `start(5)` on a timer holding its self-reference schedules the expiration 5 ms ahead | 5 seconds ahead, a delay of 5000 ms | medium, not executed; the callers that choose the argument are not part of this model | `AggregationTimers.Start`, `AggregationTimers.StartUnitMismatch` | `AggregationTimers.StartInSeconds` |

=== FILE: aggregation_timer.dfy ===
/**
 * The DTPC payload-aggregation timer (dtpc/DtpcPayloadAggregationTimer.cc):
 * a one-shot timer identified by a topic key and a sequence counter that
 * posts one expiration event when it fires, unless it was cancelled or has
 * lost its self-reference.
 */
module AggregationTimers {
  import opened SharedTimers

  /** Identity, whether the timer holds a reference to itself (`sptr_`), and the scheduler's view. */
  datatype AggTimer = AggTimer(key: string, seqCtr: nat, selfRef: bool, base: TimerBase)

  /** The event the timer posts at the head of the DTPC daemon's queue. */
  datatype Expired = Expired(key: string, seqCtr: nat)

  function NewTimer(key: string, seqCtr: nat): (r: AggTimer)
    ensures r.key == key && r.seqCtr == seqCtr && !r.selfRef && r.base == IDLE
  {
    AggTimer(key, seqCtr, false, IDLE)
  }

  /** `set_sptr`: install (or clear, with a null pointer) the self-reference. */
  function SetSelfRef(t: AggTimer, selfRef: bool): (r: AggTimer)
    ensures r.selfRef == selfRef && r.base == t.base
    ensures r.key == t.key && r.seqCtr == t.seqCtr
  {
    t.(selfRef := selfRef)
  }

  /** The delay handed to the scheduler, in milliseconds, or the error logged instead. */
  datatype StartResult = Scheduled(delayMs: int) | MissingSelfRef

  datatype AfterStart = AfterStart(timer: AggTimer, result: StartResult)

  /**
   * `start(seconds)` as written: schedule only with a self-reference, passing
   * `seconds` on unscaled as the scheduler's millisecond delay; without a
   * self-reference log an error and schedule nothing.
   */
  function Start(t: AggTimer, seconds: int): (r: AfterStart)
    ensures r.result.Scheduled? <==> t.selfRef
    ensures r.result.Scheduled? ==> r.result.delayMs == seconds && r.timer.base.pending
    ensures r.result.MissingSelfRef? ==> r.timer == t
    ensures r.timer.key == t.key && r.timer.seqCtr == t.seqCtr && r.timer.selfRef == t.selfRef
    ensures r.timer.base.cancelled == t.base.cancelled
  {
    if t.selfRef then AfterStart(t.(base := Schedule(t.base)), Scheduled(seconds))
    else AfterStart(t, MissingSelfRef)
  }

  /**
   * `start(seconds)` as its parameter name and the keepalive timer's use of
   * the same scheduler intend: the first firing `seconds` seconds ahead.
   */
  function StartInSeconds(t: AggTimer, seconds: int): (r: AfterStart)
    ensures r.result.Scheduled? <==> t.selfRef
    ensures r.result.Scheduled? ==> r.result.delayMs / MS_PER_SECOND == seconds && r.result.delayMs % MS_PER_SECOND == 0
    ensures r.result.Scheduled? ==> r.timer.base.pending
    ensures r.result.MissingSelfRef? ==> r.timer == t
    ensures r.timer.key == t.key && r.timer.seqCtr == t.seqCtr && r.timer.selfRef == t.selfRef
    ensures r.timer.base.cancelled == t.base.cancelled
  {
    if t.selfRef then AfterStart(t.(base := Schedule(t.base)), Scheduled(seconds * MS_PER_SECOND))
    else AfterStart(t, MissingSelfRef)
  }

  /**
   * The two differ only in the delay: as written, a timer started for any
   * non-zero number of seconds fires a thousand times too early.
   */
  lemma StartUnitMismatch(t: AggTimer, seconds: int)
    ensures Start(t, seconds).timer == StartInSeconds(t, seconds).timer
    ensures t.selfRef ==> StartInSeconds(t, seconds).result.delayMs == MS_PER_SECOND * Start(t, seconds).result.delayMs
    ensures t.selfRef && seconds != 0 ==> Start(t, seconds).result != StartInSeconds(t, seconds).result
  {
  }

  datatype AfterCancel = AfterCancel(timer: AggTimer, result: bool)

  /**
   * With a self-reference, cancel with the scheduler and answer what it
   * answers; in every case the self-reference is gone afterwards.
   */
  function Cancel(t: AggTimer): (r: AfterCancel)
    ensures !r.timer.selfRef
    ensures r.result ==> t.selfRef && t.base.pending
    ensures t.selfRef ==> r.result == t.base.pending && r.timer.base.cancelled
    ensures !t.selfRef ==> r.timer == t && !r.result
    ensures r.timer.key == t.key && r.timer.seqCtr == t.seqCtr
  {
    if t.selfRef then
      var c := SharedTimers.Cancel(t.base);
      AfterCancel(t.(selfRef := false, base := c.timer), c.wasPending)
    else AfterCancel(t, false)
  }

  datatype AfterTimeout = AfterTimeout(timer: AggTimer, posted: seq<Expired>)

  /**
   * A firing: post one expiration event carrying the timer's identity when it
   * is not cancelled and still holds its self-reference; drop the
   * self-reference on every path.
   */
  function Timeout(t: AggTimer): (r: AfterTimeout)
    ensures |r.posted| <= 1
    ensures |r.posted| == 1 <==> !t.base.cancelled && t.selfRef
    ensures forall e :: e in r.posted ==> e == Expired(t.key, t.seqCtr)
    ensures !r.timer.selfRef && !r.timer.base.pending && r.timer.base.cancelled == t.base.cancelled
    ensures r.timer.key == t.key && r.timer.seqCtr == t.seqCtr
  {
    var fired := t.(base := Fire(t.base));
    if t.base.cancelled || !t.selfRef then AfterTimeout(fired.(selfRef := false), [])
    else AfterTimeout(fired.(selfRef := false), [Expired(t.key, t.seqCtr)])
  }

  /** Cancelling twice: the second call answers false. */
  lemma SecondCancelFails(t: AggTimer)
    ensures !Cancel(Cancel(t).timer).result
  {
  }

  /** After a firing, a second firing posts nothing. */
  lemma SecondTimeoutSilent(t: AggTimer)
    ensures Timeout(Timeout(t).timer).posted == []
  {
  }

  datatype TimerOp = SetSelfRefOp(selfRef: bool) | StartOp(seconds: int) | CancelOp | TimeoutOp

  /** One operation: the timer afterwards and the events it posted. */
  function Step(t: AggTimer, op: TimerOp): AfterTimeout
  {
    match op
    case SetSelfRefOp(p) => AfterTimeout(SetSelfRef(t, p), [])
    case StartOp(s) => AfterTimeout(StartInSeconds(t, s).timer, [])
    case CancelOp => AfterTimeout(Cancel(t).timer, [])
    case TimeoutOp => Timeout(t)
  }

  /** Apply the operations in order, collecting the posted events. */
  function Run(t: AggTimer, ops: seq<TimerOp>): (r: AfterTimeout)
    decreases |ops|
  {
    if ops == [] then AfterTimeout(t, [])
    else
      var next := Step(t, ops[0]);
      var rest := Run(next.timer, ops[1..]);
      AfterTimeout(rest.timer, next.posted + rest.posted)
  }

  /** How many times `ops` installs a self-reference. */
  function Installs(ops: seq<TimerOp>): nat
  {
    if ops == [] then 0
    else (if ops[0] == SetSelfRefOp(true) then 1 else 0) + Installs(ops[1..])
  }

  /**
   * Identity is fixed and events are few: every event carries the key and
   * sequence counter given at construction, and there is at most one event
   * per installed self-reference — so a timer whose `set_sptr` is called once
   * posts at most one expiration event.
   */
  lemma {:induction false} RunPostsAtMostOncePerInstall(t: AggTimer, ops: seq<TimerOp>)
    ensures Run(t, ops).timer.key == t.key && Run(t, ops).timer.seqCtr == t.seqCtr
    ensures forall e :: e in Run(t, ops).posted ==> e == Expired(t.key, t.seqCtr)
    ensures |Run(t, ops).posted| <= Installs(ops) + (if t.selfRef then 1 else 0)
    decreases |ops|
  {
    if ops != [] {
      var next := Step(t, ops[0]);
      RunPostsAtMostOncePerInstall(next.timer, ops[1..]);
      var rest := Run(next.timer, ops[1..]);
      assert Run(t, ops) == AfterTimeout(rest.timer, next.posted + rest.posted);
      assert |next.posted| + (if next.timer.selfRef then 1 else 0)
          <= (if ops[0] == SetSelfRefOp(true) then 1 else 0) + (if t.selfRef then 1 else 0);
    }
  }

  /** After `cancel`, no firing posts anything unless a self-reference is installed again. */
  lemma NoEventAfterCancel(t: AggTimer, ops: seq<TimerOp>)
    requires Installs(ops) == 0
    ensures Run(Cancel(t).timer, ops).posted == []
  {
    RunPostsAtMostOncePerInstall(Cancel(t).timer, ops);
  }

  /** One install, then any operations: at most one expiration event. */
  lemma AtMostOneExpiration(key: string, seqCtr: nat, ops: seq<TimerOp>)
    requires Installs(ops) <= 1
    ensures |Run(NewTimer(key, seqCtr), ops).posted| <= 1
  {
    RunPostsAtMostOncePerInstall(NewTimer(key, seqCtr), ops);
  }
}

=== FILE: bridge.dfy ===
/**
 * The event side of the external router (ExternalRouter.cc): start-up,
 * shutdown, the gate in front of the event handlers, and the message each
 * daemon event becomes.
 */
module Bridge {
  import opened Wrappers
  import opened Domain
  import opened Messages
  import opened Reports
  import HelloTimers

  /** Seconds between keepalive messages. */
  const HELLO_INTERVAL: nat := 30

  datatype BridgeState = BridgeState(initialized: bool, shuttingDown: bool, hello: HelloTimers.HelloTimer)

  const NEW_ROUTER := BridgeState(false, false, HelloTimers.NEW_HELLO_TIMER)

  /** Daemon events, with the snapshot of daemon state each handler reads. */
  datatype RouterEvent =
    | BundleReceived(bundle: Bundle, link: Option<string>, expiredInTransit: bool)
    | BundleTransmitted(linkId: string, bundleId: BundleId, bytesSent: nat)
    | BundleDelivered(bundleId: BundleId)
    | BundleExpired(bundleId: BundleId)
    | BundleCancelled(bundleId: BundleId)
    | CustodyTimeout(bundleId: BundleId)
    | CustodyAccepted(bundle: Bundle)
    | CustodySignal
    | ContactUp(contactLink: Link)
    | ContactDown(linkId: string)
    | LinkAvailable(linkId: string)
    | LinkUnavailable(linkId: string)
    /** the contact manager's links when the report is requested */
    | LinkReport(links: seq<Link>)
    /** the pending bundles in storage order when the report is requested */
    | BundleReport(pending: seq<Bundle>)
    /** link created/deleted, attribute changes, registrations, routes, injected bundles, other reports */
    | Unreported

  /** Events whose handler sends nothing. */
  predicate Silent(ev: RouterEvent)
  {
    ev.CustodySignal? || ev.Unreported?
  }

  /** The messages an event's handler sends. */
  function EventMessages(ev: RouterEvent): (r: seq<ServerMsg>)
    ensures Silent(ev) ==> r == []
    ensures !Silent(ev) && !ev.BundleReport? ==> |r| == 1
    ensures ev.BundleReport? ==> r == Reports.BundleReport(ev.pending)
    ensures ev.LinkReport? ==> r == [LinkReportMsg(LinkEntries(ev.links))]
    ensures ev.ContactUp? ==> r == [LinkOpenedMsg([SummarizeLink(ev.contactLink)])]
    ensures ev.BundleReceived? ==>
              && r[0].BundleReceivedMsg?
              && r[0].linkId == (if ev.link.Some? then ev.link.value else "")
              && r[0].bundles == [SummarizeBundle(ev.bundle, Some(ev.expiredInTransit))]
  {
    match ev
    case BundleReceived(b, link, expiredInTransit) =>
      var linkId := match link case Some(name) => name case None => "";
      [BundleReceivedMsg(linkId, [SummarizeBundle(b, Some(expiredInTransit))])]
    case BundleTransmitted(linkId, bid, bytesSent) => [BundleTransmittedMsg(linkId, bid, bytesSent)]
    case BundleDelivered(bid) => [BundleDeliveredMsg(bid)]
    case BundleExpired(bid) => [BundleExpiredMsg(bid)]
    case BundleCancelled(bid) => [BundleCancelledMsg(bid)]
    case CustodyTimeout(bid) => [CustodyTimeoutMsg(bid)]
    case CustodyAccepted(b) => [CustodyAcceptedMsg(b.id, b.custodyId)]
    case CustodySignal => []
    case ContactUp(link) => [LinkOpenedMsg([SummarizeLink(link)])]
    case ContactDown(linkId) => [LinkClosedMsg(linkId)]
    case LinkAvailable(linkId) => [LinkAvailableMsg(linkId)]
    case LinkUnavailable(linkId) => [LinkUnavailableMsg(linkId)]
    case LinkReport(links) => [LinkReportMsg(LinkEntries(links))]
    case BundleReport(pending) => Reports.BundleReport(pending)
    case Unreported => []
  }

  /** Custody releases arrive by a direct call, not through the event gate. */
  function CustodyReleased(bid: BundleId, succeeded: bool, reason: int): (r: ServerMsg)
    ensures r.CustodySignalMsg? && r.bundleId == bid && r.succeeded == succeeded && r.reason == reason
  {
    CustodySignalMsg(bid, succeeded, reason)
  }

  /** Events reach their handlers only after initialisation and before shutdown. */
  function HandleEvent(st: BridgeState, ev: RouterEvent): (r: seq<ServerMsg>)
    ensures !st.initialized || st.shuttingDown ==> r == []
    ensures st.initialized && !st.shuttingDown ==> r == EventMessages(ev)
  {
    if st.initialized && !st.shuttingDown then EventMessages(ev) else []
  }

  datatype Transition = Transition(state: BridgeState, sent: seq<ServerMsg>)

  /**
   * Start-up: mark the bridge initialised, send a hello with zero counters at
   * once, and start the keepalive timer with the configured interval.
   */
  function Initialize(st: BridgeState): (r: Transition)
    ensures r.state.initialized && r.state.shuttingDown == st.shuttingDown
    ensures r.sent == [Hello(0, 0)]
    ensures r.state.hello.selfRef && r.state.hello.base.pending
    ensures r.state.hello.seconds == HELLO_INTERVAL
  {
    var hello := HelloTimers.Start(HelloTimers.NEW_HELLO_TIMER, HELLO_INTERVAL, true).timer;
    Transition(BridgeState(true, st.shuttingDown, hello), [Hello(0, 0)])
  }

  /**
   * Shutdown: stop accepting events, cancel the keepalive timer, send the
   * "shuttingDown" alert.  The source reaches the timer and the module server
   * through pointers that exist only from start-up until the first shutdown.
   */
  function Shutdown(st: BridgeState): (r: Transition)
    requires st.initialized && st.hello.selfRef
    ensures r.state.shuttingDown && r.state.initialized
    ensures !r.state.hello.selfRef && r.state.hello.base.cancelled
    ensures r.sent == [AlertMsg("shuttingDown")]
  {
    Transition(BridgeState(st.initialized, true, HelloTimers.Cancel(st.hello)), [AlertMsg("shuttingDown")])
  }

  /**
   * After a started bridge shuts down, no event produces a message and no
   * firing of the keepalive timer sends a hello.
   */
  lemma ShutdownSilences(st: BridgeState, ev: RouterEvent, firings: seq<HelloTimers.Counters>)
    requires st.initialized && st.hello.selfRef
    ensures HandleEvent(Shutdown(st).state, ev) == []
    ensures HelloTimers.FireAll(Shutdown(st).state.hello, firings).sent == []
  {
    HelloTimers.SilentAfterCancel(Shutdown(st).state.hello, firings);
  }

  /**
   * The gate over a bridge's life: events before start-up and after shutdown
   * send nothing, events in between send what their handlers send.
   */
  lemma Lifecycle(ev: RouterEvent)
    ensures HandleEvent(NEW_ROUTER, ev) == []
    ensures HandleEvent(Initialize(NEW_ROUTER).state, ev) == EventMessages(ev)
    ensures HandleEvent(Shutdown(Initialize(NEW_ROUTER).state).state, ev) == []
  {
  }
}

=== FILE: bytes.dfy ===
/**
 * Octets and the 32-bit big-endian ("network byte order") integers that the
 * external-router wire format is built from (htonl / ntohl).
 */
module Bytes {

  newtype uint8 = x: int | 0 <= x < 256

  type Bytes = seq<uint8>

  const TWO_TO_THE_32: nat := 0x1_0000_0000

  /** The four octets of `n` in network byte order, most significant first. */
  function EncodeBE32(n: nat): (r: Bytes)
    requires n < TWO_TO_THE_32
    ensures |r| == 4
  {
    [ (n / 0x100_0000) as uint8,
      (n / 0x1_0000 % 0x100) as uint8,
      (n / 0x100 % 0x100) as uint8,
      (n % 0x100) as uint8 ]
  }

  /** The unsigned value of four octets read in network byte order. */
  function DecodeBE32(b: Bytes): (n: nat)
    requires |b| == 4
    ensures n < TWO_TO_THE_32
  {
    b[0] as int * 0x100_0000 + b[1] as int * 0x1_0000 + b[2] as int * 0x100 + b[3] as int
  }

  /** ntohl undoes htonl. */
  lemma DecodeEncodeBE32(n: nat)
    requires n < TWO_TO_THE_32
    ensures DecodeBE32(EncodeBE32(n)) == n
  {
    var r := EncodeBE32(n);
    var a, b, c, d := n / 0x100_0000, n / 0x1_0000 % 0x100, n / 0x100 % 0x100, n % 0x100;
    assert n / 0x1_0000 == a * 0x100 + b;
    assert n / 0x100 == (a * 0x100 + b) * 0x100 + c;
    assert n == ((a * 0x100 + b) * 0x100 + c) * 0x100 + d;
  }

  /** htonl undoes ntohl: every four-octet group is the encoding of its value. */
  lemma EncodeDecodeBE32(b: Bytes)
    requires |b| == 4
    ensures EncodeBE32(DecodeBE32(b)) == b
  {
    var n := DecodeBE32(b);
    var x0, x1, x2, x3 := b[0] as int, b[1] as int, b[2] as int, b[3] as int;
    DivMod(x0 * 0x1_0000 + x1 * 0x100 + x2, x3, 0x100);
    DivMod(x0 * 0x100 + x1, x2 * 0x100 + x3, 0x1_0000);
    DivMod(x0, x1 * 0x1_0000 + x2 * 0x100 + x3, 0x100_0000);
    DivMod(x0 * 0x100, x1, 0x100);
    DivMod(x0 * 0x1_0000 + x1 * 0x100, x2, 0x100);
  }

  /** Euclidean division of `q * k + r` by `k` when `r` is a remainder. */
  lemma DivMod(q: int, r: int, k: int)
    requires 0 < k && 0 <= r < k
    ensures (q * k + r) / k == q && (q * k + r) % k == r
  {
    var n := q * k + r;
    var d, m := n / k, n % k;
    assert d * k + m == n;
    var e := q - d;
    assert e * k == q * k - d * k;
    assert e * k == m - r;
    if e > 0 {
      assert e * k == (e - 1) * k + k;
      MulNonNegative(e - 1, k);
    } else if e < 0 {
      assert -e * k == (-e - 1) * k + k;
      MulNonNegative(-e - 1, k);
    }
  }

  lemma MulNonNegative(a: int, b: int)
    requires 0 <= a && 0 <= b
    ensures 0 <= a * b
  {
  }

  /** Distinct values have distinct encodings, so a magic number is recognised exactly. */
  lemma EncodeBE32Injective(m: nat, n: nat)
    requires m < TWO_TO_THE_32 && n < TWO_TO_THE_32
    requires EncodeBE32(m) == EncodeBE32(n)
    ensures m == n
  {
    DecodeEncodeBE32(m);
    DecodeEncodeBE32(n);
  }
}

=== FILE: connection_slot.dfy ===
/**
 * The single-slot connection policy of the router's TCP listener
 * (ExternalRouter.cc, TcpInterface::accepted, client_closed, post_to_send and
 * the ModuleServer wrappers in front of them).  At most one external router
 * is connected; a second one is turned away at accept time.
 */
module ConnectionSlot {
  import opened Wrappers

  /** Identity of an accepted connection (its socket descriptor). */
  type ClientId = nat

  /** `router_client_`: the connection currently installed, if any. */
  datatype Slot = Slot(client: Option<ClientId>)

  /** What `accepted` does with the new socket. */
  datatype AcceptAction =
    | Installed(fd: ClientId)  // a connection is created and its receiver started
    | Rejected(fd: ClientId)   // the socket is closed and a warning logged

  datatype AcceptOutcome = AcceptOutcome(slot: Slot, action: AcceptAction)

  function Accept(s: Slot, fd: ClientId): (r: AcceptOutcome)
    ensures r.action.fd == fd
    ensures r.action.Installed? <==> s.client.None?
    ensures r.action.Installed? ==> r.slot.client == Some(fd)
    ensures r.action.Rejected? ==> r.slot == s
  {
    if s.client.None? then AcceptOutcome(Slot(Some(fd)), Installed(fd))
    else AcceptOutcome(s, Rejected(fd))
  }

  /** What `client_closed` logs. */
  datatype CloseLog = ClosedConnection | UnknownConnection

  datatype CloseOutcome = CloseOutcome(slot: Slot, log: CloseLog)

  /** A connection's receiver reports that it ended; only the installed connection frees the slot. */
  function ClientClosed(s: Slot, cl: ClientId): (r: CloseOutcome)
    ensures r.slot.client.None? <==> s.client.None? || s.client == Some(cl)
    ensures r.slot.client.Some? ==> r.slot == s
    ensures r.log == ClosedConnection <==> s.client == Some(cl)
  {
    if s.client == Some(cl) then CloseOutcome(Slot(None), ClosedConnection)
    else CloseOutcome(s, UnknownConnection)
  }

  /** Where an outbound message goes. */
  datatype Delivery = DeliverTo(client: ClientId) | Dropped

  /** `TcpInterface::post_to_send`: to the installed connection, or dropped when there is none. */
  function PostToSend(s: Slot): (r: Delivery)
    ensures r.DeliverTo? <==> s.client.Some?
    ensures r.DeliverTo? ==> s.client == Some(r.client)
  {
    match s.client
    case Some(c) => DeliverTo(c)
    case None => Dropped
  }

  /**
   * `ModuleServer::post_to_send`: the listener interface is gone once the
   * module server has shut down, and then every message is dropped.
   */
  function ServerPostToSend(iface: Option<Slot>): (r: Delivery)
    ensures r.DeliverTo? <==> iface.Some? && iface.value.client.Some?
    ensures r.DeliverTo? ==> iface.value.client == Some(r.client)
  {
    match iface
    case Some(s) => PostToSend(s)
    case None => Dropped
  }

  /** The events that touch the slot, in the order the lock serialises them. */
  datatype SlotEvent = AcceptEvent(fd: ClientId) | CloseEvent(cl: ClientId)

  /** The slot after one event. */
  function Step(s: Slot, ev: SlotEvent): Slot
  {
    match ev
    case AcceptEvent(fd) => Accept(s, fd).slot
    case CloseEvent(cl) => ClientClosed(s, cl).slot
  }

  function Run(s: Slot, evs: seq<SlotEvent>): Slot
    decreases |evs|
  {
    if evs == [] then s else Run(Step(s, evs[0]), evs[1..])
  }

  /**
   * The installed connection keeps the slot against any number of later
   * accepts and of closes reported for other connections.
   */
  lemma {:induction false} InstalledClientStays(s: Slot, a: ClientId, evs: seq<SlotEvent>)
    requires s.client == Some(a)
    requires forall i :: 0 <= i < |evs| ==> evs[i] != CloseEvent(a)
    ensures Run(s, evs).client == Some(a)
    decreases |evs|
  {
    if evs != [] {
      assert evs[0] != CloseEvent(a);
      InstalledClientStays(Step(s, evs[0]), a, evs[1..]);
    }
  }

  /**
   * Starting with no connection, whoever holds the slot was accepted at some
   * point and has not reported closing since.
   */
  lemma {:induction false} SlotHolderWasAccepted(s: Slot, evs: seq<SlotEvent>)
    requires Run(s, evs).client.Some?
    ensures var c := Run(s, evs).client.value;
            s.client == Some(c) || exists i :: 0 <= i < |evs| && evs[i] == AcceptEvent(c)
    ensures var c := Run(s, evs).client.value;
            forall j :: 0 <= j < |evs| && evs[j] == CloseEvent(c) ==> exists i :: j < i < |evs| && evs[i] == AcceptEvent(c)
    decreases |evs|
  {
    if evs != [] {
      var next := Step(s, evs[0]);
      assert Run(s, evs) == Run(next, evs[1..]);
      SlotHolderWasAccepted(next, evs[1..]);
      var c := Run(s, evs).client.value;
      if next.client == Some(c) && s.client != Some(c) {
        assert evs[0] == AcceptEvent(c);
      }
      if evs[0] == CloseEvent(c) {
        assert next.client != Some(c);
        var i :| 0 <= i < |evs[1..]| && evs[1..][i] == AcceptEvent(c);
        assert evs[i + 1] == AcceptEvent(c);
      }
      forall j | 1 <= j < |evs| && evs[j] == CloseEvent(c)
        ensures exists i :: j < i < |evs| && evs[i] == AcceptEvent(c)
      {
        assert evs[1..][j - 1] == CloseEvent(c);
        var i :| j - 1 < i < |evs[1..]| && evs[1..][i] == AcceptEvent(c);
        assert evs[i + 1] == AcceptEvent(c);
      }
      forall i | 0 <= i < |evs[1..]| && evs[1..][i] == AcceptEvent(c)
        ensures exists k :: 0 <= k < |evs| && evs[k] == AcceptEvent(c)
      {
        assert evs[i + 1] == AcceptEvent(c);
      }
    }
  }
}

=== FILE: dispatch.dfy ===
/**
 * The inbound dispatcher (ExternalRouter.cc, ModuleServer::process_action and
 * the process_*_req_msg_v0 handlers).  A message from the external router,
 * already taken apart by the CBOR decoder, is checked for a known type at
 * version 0 and turned into requests for the bundle daemon.  Every handler
 * looks its bundle or link up afresh in the store.
 */
module Dispatch {
  import opened Wrappers
  import opened Domain

  /** Inbound message types; `Unlisted` is every other type code. */
  datatype MsgType =
    | LinkQuery | BundleQuery | TransmitBundleReq | LinkReconfigureReq
    | LinkCloseReq | TakeCustodyReq | DeleteBundleReq | ShutdownReq
    | Unlisted(code: nat)

  /** The eight types the dispatcher handles, each only at version 0. */
  const DEFINED_TYPES: set<MsgType> := {
    LinkQuery, BundleQuery, TransmitBundleReq, LinkReconfigureReq,
    LinkCloseReq, TakeCustodyReq, DeleteBundleReq, ShutdownReq }

  datatype Header = Header(msgType: MsgType, version: nat)

  /** A typed value of a link-reconfigure pair; `KvUnknown` carries any other value-type tag. */
  datatype KvValue = KvBool(b: bool) | KvUint(u: nat) | KvInt(i: int) | KvString(s: string) | KvUnknown(valueType: nat)

  datatype KeyValue = KeyValue(key: string, value: KvValue)

  datatype AttrValue = BoolAttr(b: bool) | UintAttr(u: nat) | IntAttr(i: int) | StringAttr(s: string)

  /** An entry of the `AttributeVector` a link reconfigure request carries. */
  datatype NamedAttribute = NamedAttribute(name: string, value: AttrValue)

  /**
   * What the type-specific field decoder yields for the rest of the message;
   * `Malformed` stands for a decoder that reported failure.
   */
  datatype Fields =
    | TransmitFields(bundleId: BundleId, linkId: string)
    | ReconfigureFields(linkId: string, params: seq<KeyValue>)
    | CloseFields(linkId: string)
    | CustodyFields(bundleId: BundleId)
    | DeleteFields(bundleIds: seq<BundleId>)
    | Malformed

  /** A received message: its header, `None` when the header does not decode, and its fields. */
  datatype Inbound = Inbound(header: Option<Header>, fields: Fields)

  datatype ForwardAction = ForwardAction
  datatype LinkTarget = LinkClosed
  datatype DeletionReason = NoAdditionalInfo

  /**
   * Requests for the bundle daemon, and the two console-interpreter calls a
   * shutdown request makes: the "shutdown" command and leaving the event loop.
   */
  datatype Request =
    | LinkQueryRequest
    | BundleQueryRequest
    | BundleSendRequest(bundleId: BundleId, linkId: string, action: ForwardAction)
    | LinkReconfigureRequest(linkId: string, params: seq<NamedAttribute>)
    | LinkStateChangeRequest(linkId: string, target: LinkTarget, reason: ContactReason)
    | BundleTakeCustodyRequest(bundleId: BundleId)
    | BundleDeleteRequest(bundleId: BundleId, deletion: DeletionReason)
    | ShutdownCommand
    | ExitEventLoop

  /** A request and whether it went to the head of the daemon's queue (`post_at_head`). */
  datatype Posted = Posted(request: Request, atHead: bool)

  /** Lines the dispatcher logs. */
  datatype Log =
    | UnsupportedMessage(msgType: MsgType, version: nat)
    | FieldsDecodeError(msgType: MsgType)
    | UnknownValueType(key: string)
    | NoSuchLink(linkId: string)
    | NoSuchBundle(bundleId: BundleId)
    | ShutdownInitiated

  /** What a handler did: requests in posting order, the store afterwards, log lines. */
  datatype Handled = Handled(posted: seq<Posted>, store: Store, logs: seq<Log>)

  datatype Status = Success | Failure

  datatype Outcome = Outcome(status: Status, handled: Handled)

  // ---------------------------------------------------------------------
  // Single-object handlers

  function TransmitBundle(f: Fields, store: Store): (r: Handled)
    ensures r.store == store
    ensures f.TransmitFields? ==> r.logs == []
    ensures f.TransmitFields? ==> (|r.posted| == 1 <==> Live(store, f.bundleId)) && |r.posted| <= 1
    ensures f.TransmitFields? && |r.posted| == 1 ==>
              r.posted[0] == Posted(BundleSendRequest(f.bundleId, f.linkId, ForwardAction), false)
    ensures !f.TransmitFields? ==> r.posted == [] && r.logs == [FieldsDecodeError(TransmitBundleReq)]
  {
    match f
    case TransmitFields(bid, linkId) =>
      if bid in store.bundles && !store.bundles[bid].expired
      then Handled([Posted(BundleSendRequest(bid, linkId, ForwardAction), false)], store, [])
      else Handled([], store, [])
    case _ => Handled([], store, [FieldsDecodeError(TransmitBundleReq)])
  }

  function TakeCustody(f: Fields, store: Store): (r: Handled)
    ensures r.store == store
    ensures f.CustodyFields? ==> (|r.posted| == 1 <==> Live(store, f.bundleId)) && |r.posted| <= 1
    ensures f.CustodyFields? && |r.posted| == 1 ==>
              r.posted[0] == Posted(BundleTakeCustodyRequest(f.bundleId), false) && r.logs == []
    ensures f.CustodyFields? && r.posted == [] ==> r.logs == [NoSuchBundle(f.bundleId)]
    ensures !f.CustodyFields? ==> r.posted == [] && r.logs == [FieldsDecodeError(TakeCustodyReq)]
  {
    match f
    case CustodyFields(bid) =>
      if bid in store.bundles && !store.bundles[bid].expired
      then Handled([Posted(BundleTakeCustodyRequest(bid), false)], store, [])
      else Handled([], store, [NoSuchBundle(bid)])
    case _ => Handled([], store, [FieldsDecodeError(TakeCustodyReq)])
  }

  function CloseLink(f: Fields, store: Store): (r: Handled)
    ensures r.store == store
    ensures f.CloseFields? ==> (|r.posted| == 1 <==> f.linkId in store.links) && |r.posted| <= 1
    ensures f.CloseFields? && |r.posted| == 1 ==>
              r.posted[0] == Posted(LinkStateChangeRequest(f.linkId, LinkClosed, NoInfo), true) && r.logs == []
    ensures f.CloseFields? && r.posted == [] ==> r.logs == [NoSuchLink(f.linkId)]
    ensures !f.CloseFields? ==> r.posted == [] && r.logs == [FieldsDecodeError(LinkCloseReq)]
  {
    match f
    case CloseFields(linkId) =>
      if linkId in store.links
      then Handled([Posted(LinkStateChangeRequest(linkId, LinkClosed, NoInfo), true)], store, [])
      else Handled([], store, [NoSuchLink(linkId)])
    case _ => Handled([], store, [FieldsDecodeError(LinkCloseReq)])
  }

  // ---------------------------------------------------------------------
  // Link reconfigure: typed pairs become named attributes

  predicate KnownValueType(kv: KeyValue)
  {
    !kv.value.KvUnknown?
  }

  /** The pairs of `kvs` with a known value type, in order. */
  function KnownPairs(kvs: seq<KeyValue>): (r: seq<KeyValue>)
    ensures forall i :: 0 <= i < |r| ==> KnownValueType(r[i])
  {
    if kvs == [] then []
    else if KnownValueType(kvs[0]) then [kvs[0]] + KnownPairs(kvs[1..])
    else KnownPairs(kvs[1..])
  }

  /** One warning per pair of unknown value type, naming its key, in order. */
  function UnknownWarnings(kvs: seq<KeyValue>): seq<Log>
  {
    if kvs == [] then []
    else if KnownValueType(kvs[0]) then UnknownWarnings(kvs[1..])
    else [UnknownValueType(kvs[0].key)] + UnknownWarnings(kvs[1..])
  }

  /** The pair an attribute was made from: the inverse of the conversion. */
  function AsKeyValue(a: NamedAttribute): KeyValue
  {
    match a.value
    case BoolAttr(b) => KeyValue(a.name, KvBool(b))
    case UintAttr(u) => KeyValue(a.name, KvUint(u))
    case IntAttr(i) => KeyValue(a.name, KvInt(i))
    case StringAttr(s) => KeyValue(a.name, KvString(s))
  }

  function AsKeyValues(attrs: seq<NamedAttribute>): (r: seq<KeyValue>)
    ensures |r| == |attrs|
  {
    if attrs == [] then [] else [AsKeyValue(attrs[0])] + AsKeyValues(attrs[1..])
  }

  datatype Converted = Converted(attrs: seq<NamedAttribute>, logs: seq<Log>)

  /**
   * Walk the pairs in order: bool, uint, int and string values become
   * attributes under the same key; any other value type is skipped with a warning.
   */
  function ToAttributes(kvs: seq<KeyValue>): (r: Converted)
    ensures AsKeyValues(r.attrs) == KnownPairs(kvs)
    ensures |r.attrs| + |r.logs| == |kvs|
    ensures forall i :: 0 <= i < |r.logs| ==> r.logs[i].UnknownValueType?
    ensures r.logs == UnknownWarnings(kvs)
  {
    if kvs == [] then Converted([], [])
    else
      var rest := ToAttributes(kvs[1..]);
      var kv := kvs[0];
      match kv.value
      case KvBool(b) => Converted([NamedAttribute(kv.key, BoolAttr(b))] + rest.attrs, rest.logs)
      case KvUint(u) => Converted([NamedAttribute(kv.key, UintAttr(u))] + rest.attrs, rest.logs)
      case KvInt(i) => Converted([NamedAttribute(kv.key, IntAttr(i))] + rest.attrs, rest.logs)
      case KvString(s) => Converted([NamedAttribute(kv.key, StringAttr(s))] + rest.attrs, rest.logs)
      case KvUnknown(_) => Converted(rest.attrs, [UnknownValueType(kv.key)] + rest.logs)
  }

  function ReconfigureLink(f: Fields, store: Store): (r: Handled)
    ensures r.store == store
    ensures f.ReconfigureFields? ==> (|r.posted| == 1 <==> f.linkId in store.links) && |r.posted| <= 1
    ensures f.ReconfigureFields? && |r.posted| == 1 ==>
              && r.posted[0].atHead
              && r.posted[0].request.LinkReconfigureRequest?
              && r.posted[0].request.linkId == f.linkId
              && AsKeyValues(r.posted[0].request.params) == KnownPairs(f.params)
    ensures f.ReconfigureFields? && |r.posted| == 1 ==>
              && r.logs == UnknownWarnings(f.params)
              && |r.logs| == |f.params| - |KnownPairs(f.params)|
              && forall i :: 0 <= i < |r.logs| ==> r.logs[i].UnknownValueType?
    ensures f.ReconfigureFields? && r.posted == [] ==> r.logs == [NoSuchLink(f.linkId)]
    ensures !f.ReconfigureFields? ==> r.posted == [] && r.logs == [FieldsDecodeError(LinkReconfigureReq)]
  {
    match f
    case ReconfigureFields(linkId, params) =>
      if linkId in store.links then
        var c := ToAttributes(params);
        Handled([Posted(LinkReconfigureRequest(linkId, c.attrs), true)], store, c.logs)
      else Handled([], store, [NoSuchLink(linkId)])
    case _ => Handled([], store, [FieldsDecodeError(LinkReconfigureReq)])
  }

  // ---------------------------------------------------------------------
  // Delete: every id on its own

  /** The delete requests a list of ids should produce against `store`: one per live id, in order. */
  function DeleteRequests(ids: seq<BundleId>, store: Store): seq<Posted>
  {
    if ids == [] then []
    else if Live(store, ids[0])
    then [Posted(BundleDeleteRequest(ids[0], NoAdditionalInfo), false)] + DeleteRequests(ids[1..], store)
    else DeleteRequests(ids[1..], store)
  }

  /** The warnings a list of ids should produce against `store`: one per unknown id, in order. */
  function MissingBundles(ids: seq<BundleId>, store: Store): seq<Log>
  {
    if ids == [] then []
    else if ids[0] !in store.bundles then [NoSuchBundle(ids[0])] + MissingBundles(ids[1..], store)
    else MissingBundles(ids[1..], store)
  }

  /** Two stores that agree on which bundles exist and which of them have expired. */
  predicate SameLookups(s: Store, t: Store)
  {
    && s.bundles.Keys == t.bundles.Keys
    && forall k :: k in s.bundles ==> s.bundles[k].expired == t.bundles[k].expired
  }

  lemma {:induction false} LookupsDecide(ids: seq<BundleId>, s: Store, t: Store)
    requires SameLookups(s, t)
    ensures DeleteRequests(ids, s) == DeleteRequests(ids, t)
    ensures MissingBundles(ids, s) == MissingBundles(ids, t)
  {
    if ids != [] {
      LookupsDecide(ids[1..], s, t);
    }
  }

  /** The flag a delete request sets on every bundle it finds. */
  function MarkDeleting(b: Bundle): Bundle
  {
    b.(manuallyDeleting := true)
  }

  /** One id of a delete request. */
  function DeleteOne(id: BundleId, store: Store): (r: Handled)
  {
    if id in store.bundles then
      var b := store.bundles[id];
      var marked := Store(store.bundles[id := MarkDeleting(b)], store.links);
      if !b.expired
      then Handled([Posted(BundleDeleteRequest(id, NoAdditionalInfo), false)], marked, [])
      else Handled([], marked, [])
    else Handled([], store, [NoSuchBundle(id)])
  }

  /** The loop of the delete handler, one id after the other. */
  function DeleteEach(ids: seq<BundleId>, store: Store): (r: Handled)
    ensures r.store.links == store.links
    ensures r.store.bundles.Keys == store.bundles.Keys
    decreases |ids|
  {
    if ids == [] then Handled([], store, [])
    else
      var first := DeleteOne(ids[0], store);
      var rest := DeleteEach(ids[1..], first.store);
      Handled(first.posted + rest.posted, rest.store, first.logs + rest.logs)
  }

  /**
   * Every found bundle ends up marked as being deleted manually, expired or
   * not, and nothing else about the store changes.
   */
  lemma {:induction false} DeleteEachMarks(ids: seq<BundleId>, store: Store)
    ensures var r := DeleteEach(ids, store);
            forall k :: k in store.bundles ==>
              r.store.bundles[k] == (if k in ids then MarkDeleting(store.bundles[k]) else store.bundles[k])
    decreases |ids|
  {
    if ids != [] {
      var first := DeleteOne(ids[0], store);
      DeleteEachMarks(ids[1..], first.store);
      var r := DeleteEach(ids, store);
      assert r.store == DeleteEach(ids[1..], first.store).store;
      forall k | k in store.bundles
        ensures r.store.bundles[k] == (if k in ids then MarkDeleting(store.bundles[k]) else store.bundles[k])
      {
        assert k in ids <==> k == ids[0] || k in ids[1..];
      }
    }
  }

  /**
   * Only live bundles get a delete request, one per occurrence of their id, in
   * list order; each unknown id gets one warning, in list order.
   */
  lemma {:induction false} DeleteEachRequests(ids: seq<BundleId>, store: Store)
    ensures DeleteEach(ids, store).posted == DeleteRequests(ids, store)
    ensures DeleteEach(ids, store).logs == MissingBundles(ids, store)
    decreases |ids|
  {
    if ids != [] {
      var first := DeleteOne(ids[0], store);
      DeleteOneLookups(ids[0], store);
      DeleteEachRequests(ids[1..], first.store);
      LookupsDecide(ids[1..], first.store, store);
      var rest := DeleteEach(ids[1..], first.store);
      assert DeleteEach(ids, store) == Handled(first.posted + rest.posted, rest.store, first.logs + rest.logs);
    }
  }

  /** One id asks for at most its own deletion, warns at most about itself, and decides no later lookup. */
  lemma DeleteOneLookups(id: BundleId, store: Store)
    ensures DeleteOne(id, store).posted
         == (if Live(store, id) then [Posted(BundleDeleteRequest(id, NoAdditionalInfo), false)] else [])
    ensures DeleteOne(id, store).logs == (if id in store.bundles then [] else [NoSuchBundle(id)])
    ensures SameLookups(DeleteOne(id, store).store, store)
  {
  }

  /** The loop takes the first id, then carries on with the rest against the updated store. */
  lemma DeleteEachCons(ids: seq<BundleId>, store: Store)
    requires ids != []
    ensures var first := DeleteOne(ids[0], store);
            var rest := DeleteEach(ids[1..], first.store);
            DeleteEach(ids, store) == Handled(first.posted + rest.posted, rest.store, first.logs + rest.logs)
  {
  }

  /** Processing a list of ids is processing its two halves one after the other. */
  lemma {:induction false} DeleteEachSplit(a: seq<BundleId>, b: seq<BundleId>, store: Store)
    ensures var ra := DeleteEach(a, store);
            var rb := DeleteEach(b, ra.store);
            DeleteEach(a + b, store) == Handled(ra.posted + rb.posted, rb.store, ra.logs + rb.logs)
    decreases |a|
  {
    if a == [] {
      assert [] + b == b;
    } else {
      var first := DeleteOne(a[0], store);
      DeleteEachSplit(a[1..], b, first.store);
      DeleteEachCons(a, store);
      DeleteEachCons(a + b, store);
      assert (a + b)[0] == a[0];
      assert (a + b)[1..] == a[1..] + b;
      var ra1 := DeleteEach(a[1..], first.store);
      var rb := DeleteEach(b, ra1.store);
      assert first.posted + (ra1.posted + rb.posted) == (first.posted + ra1.posted) + rb.posted;
      assert first.logs + (ra1.logs + rb.logs) == (first.logs + ra1.logs) + rb.logs;
    }
  }

  function DeleteBundles(f: Fields, store: Store): (r: Handled)
    ensures !f.DeleteFields? ==> r == Handled([], store, [FieldsDecodeError(DeleteBundleReq)])
    ensures f.DeleteFields? ==> r.posted == DeleteRequests(f.bundleIds, store)
    ensures f.DeleteFields? ==> r.logs == MissingBundles(f.bundleIds, store)
    ensures f.DeleteFields? ==> r.store.links == store.links && r.store.bundles.Keys == store.bundles.Keys
    ensures f.DeleteFields? ==> forall k :: k in store.bundles ==>
              r.store.bundles[k] == (if k in f.bundleIds then MarkDeleting(store.bundles[k]) else store.bundles[k])
  {
    match f
    case DeleteFields(ids) =>
      DeleteEachRequests(ids, store);
      DeleteEachMarks(ids, store);
      DeleteEach(ids, store)
    case _ => Handled([], store, [FieldsDecodeError(DeleteBundleReq)])
  }

  // ---------------------------------------------------------------------
  // process_action

  /** The handler for a defined type at version 0. */
  function Handle(t: MsgType, f: Fields, store: Store): (r: Handled)
    requires t in DEFINED_TYPES
    ensures t != DeleteBundleReq ==> r.store == store
    ensures t == LinkQuery ==> r == Handled([Posted(LinkQueryRequest, false)], store, [])
    ensures t == BundleQuery ==> r == Handled([Posted(BundleQueryRequest, false)], store, [])
    ensures t == ShutdownReq ==> r.logs == [ShutdownInitiated] && |r.posted| == 3
    ensures t == ShutdownReq ==> r.posted[0].request == r.posted[2].request == ShutdownCommand
    ensures t == ShutdownReq ==> r.posted[1].request == ExitEventLoop
  {
    match t
    case LinkQuery => Handled([Posted(LinkQueryRequest, false)], store, [])
    case BundleQuery => Handled([Posted(BundleQueryRequest, false)], store, [])
    case TransmitBundleReq => TransmitBundle(f, store)
    case LinkReconfigureReq => ReconfigureLink(f, store)
    case LinkCloseReq => CloseLink(f, store)
    case TakeCustodyReq => TakeCustody(f, store)
    case DeleteBundleReq => DeleteBundles(f, store)
    case ShutdownReq =>
      Handled([Posted(ShutdownCommand, false), Posted(ExitEventLoop, false), Posted(ShutdownCommand, false)], store, [ShutdownInitiated])
  }

  /**
   * Success exactly when the header decodes and names a defined type at
   * version 0; anything else posts nothing, changes nothing, and logs the
   * type and version when the header was readable.
   */
  function ProcessAction(m: Inbound, store: Store): (r: Outcome)
    ensures r.status == Success <==>
              m.header.Some? && m.header.value.msgType in DEFINED_TYPES && m.header.value.version == 0
    ensures r.status == Success ==> r.handled == Handle(m.header.value.msgType, m.fields, store)
    ensures r.status == Failure ==> r.handled.posted == [] && r.handled.store == store
    ensures r.status == Failure && m.header.Some? ==>
              r.handled.logs == [UnsupportedMessage(m.header.value.msgType, m.header.value.version)]
    ensures r.status == Failure && m.header.None? ==> r.handled.logs == []
  {
    match m.header
    case None => Outcome(Failure, Handled([], store, []))
    case Some(h) =>
      var unsupported := Outcome(Failure, Handled([], store, [UnsupportedMessage(h.msgType, h.version)]));
      match h.msgType
      case Unlisted(_) => unsupported
      case _ => if h.version == 0 then Outcome(Success, Handle(h.msgType, m.fields, store)) else unsupported
  }

  // ---------------------------------------------------------------------
  // Scenarios

  /** A transmit request for a live bundle 42 on link "ltp-1" posts one forward request. */
  lemma TransmitScenario(store: Store)
    requires Live(store, 42)
    ensures ProcessAction(Inbound(Some(Header(TransmitBundleReq, 0)), TransmitFields(42, "ltp-1")), store).handled.posted
         == [Posted(BundleSendRequest(42, "ltp-1", ForwardAction), false)]
  {
  }

  /** Deleting [1, 2, 3] with 2 unknown deletes 1 and 3 and warns once, about 2. */
  lemma DeleteScenario(store: Store)
    requires Live(store, 1) && Live(store, 3) && 2 !in store.bundles
    ensures var r := ProcessAction(Inbound(Some(Header(DeleteBundleReq, 0)), DeleteFields([1, 2, 3])), store);
            && r.handled.posted == [Posted(BundleDeleteRequest(1, NoAdditionalInfo), false),
                                    Posted(BundleDeleteRequest(3, NoAdditionalInfo), false)]
            && r.handled.logs == [NoSuchBundle(2)]
  {
    var ids: seq<BundleId> := [1, 2, 3];
    assert ids[1..] == [2, 3] && ids[1..][1..] == [3] && ids[1..][1..][1..] == [];
  }
}

=== FILE: domain.dfy ===
/**
 * The parts of the bundle daemon's state that the bridge reads: bundles as
 * the bundle store and the pending list hold them, links as the contact
 * manager holds them.  The daemon itself is not modelled; these records are
 * the values the bridge looks at.
 */
module Domain {

  type BundleId = nat

  /** A stored bundle, reduced to the attributes the bridge reads or sets. */
  datatype Bundle = Bundle(
    id: BundleId,
    bpVersion: nat,
    custodyId: nat,
    source: string,
    dest: string,
    gbofId: string,
    prevHop: string,
    durableSize: nat,
    priority: nat,
    custodyRequested: bool,
    localCustody: bool,
    bibeCustody: bool,
    singletonDest: bool,
    ecosCritical: bool,
    /** forwarding-log entries in state TRANSMITTED or DELIVERED */
    transmittedOrDelivered: nat,
    expired: bool,
    manuallyDeleting: bool)

  /**
   * Convergence-layer parameters hung off a link (`cl_info`), by dynamic type.
   * Addresses are IPv4 addresses as 32-bit values.
   */
  datatype ClParams =
    | TcpLinkParams(remoteAddr: nat, remotePort: nat)
    | UdpParams(remoteAddr: nat, remotePort: nat, rate: nat)
    | LtpUdpParams(remoteAddr: nat, remotePort: nat, rate: nat)
    | OtherParams

  /** A link as the contact manager lists it; `stateName` is `state_to_str` of its state. */
  datatype Link = Link(
    name: string,
    remoteEid: string,
    clName: string,
    stateName: string,
    nextHop: string,
    hasContact: bool,
    clInfo: ClParams)

  /**
   * What the inbound handlers look up: every stored bundle by id
   * (`all_bundles()->find_for_storage`) and the names of the known links
   * (`contactmgr()->find_link`).
   */
  datatype Store = Store(bundles: map<BundleId, Bundle>, links: set<string>)

  /** Why a contact or link changed state (`ContactEvent::reason_t`); `OtherReason` is any other code. */
  datatype ContactReason =
    | NoInfo | User | Shutdown | Broken | ClError | ClVersion | Reconnect | Idle | Timeout
    | OtherReason(code: int)

  /** A bundle the handlers may act on: found, and not expired. */
  predicate Live(store: Store, id: BundleId)
  {
    id in store.bundles && !store.bundles[id].expired
  }
}

=== FILE: framing.dfy ===
/**
 * The external-router wire format: a four-octet magic number in each
 * direction, then length-prefixed frames.  `Receive` is the receiver loop of a
 * TCP connection (ExternalRouter.cc, TcpConnection::run) run over the whole
 * byte stream the peer sent before closing; `EncodeFrame` is what the sender
 * loop writes for one queued message.
 */
module Framing {
  import opened Bytes

  /** "XCLT": the first four octets a client must send. */
  const CLIENT_MAGIC: nat := 0x58434C54
  /** "XRTR": the first four octets the server writes. */
  const SERVER_MAGIC: nat := 0x58525452

  /**
   * The receiver keeps a frame length in an `int` and reserves `length + 1`
   * octets for it, so only lengths below 2^31 - 1 have defined behaviour.
   */
  const MAX_FRAME_LENGTH: nat := 0x7FFF_FFFF

  /** Why the receiver loop stopped reading. */
  datatype Termination =
    | EndOfStream     // the stream ended (or a read failed), possibly inside a frame
    | BadMagic        // the first four octets were not the client magic
    | LengthOverflow  // a length of MAX_FRAME_LENGTH or more: the source's behaviour is undefined here

  /** The messages handed to the dispatcher queue, in arrival order, and why reading stopped. */
  datatype Received = Received(posted: seq<Bytes>, end: Termination)

  function TotalLength(ms: seq<Bytes>): nat
  {
    if ms == [] then 0 else |ms[0]| + TotalLength(ms[1..])
  }

  /** The messages of `ms` that are not empty, in order. */
  function NonEmpty(ms: seq<Bytes>): (r: seq<Bytes>)
    ensures |r| <= |ms|
    ensures forall i :: 0 <= i < |r| ==> r[i] != []
  {
    if ms == [] then []
    else if ms[0] == [] then NonEmpty(ms[1..])
    else [ms[0]] + NonEmpty(ms[1..])
  }

  /** One frame as the sender writes it: htonl of the size (a 32-bit value), then the payload. */
  function EncodeFrame(m: Bytes): (r: Bytes)
    ensures |r| == 4 + |m|
    ensures r[4..] == m
    ensures DecodeBE32(r[..4]) == |m| % TWO_TO_THE_32
  {
    var header := EncodeBE32(|m| % TWO_TO_THE_32);
    DecodeEncodeBE32(|m| % TWO_TO_THE_32);
    assert (header + m)[..4] == header;
    header + m
  }

  /** The frames of `ms`, back to back, in queue order. */
  function EncodeFrames(ms: seq<Bytes>): (r: Bytes)
  {
    if ms == [] then [] else EncodeFrame(ms[0]) + EncodeFrames(ms[1..])
  }

  /**
   * The frame-reading part of the receiver loop, after the handshake: read a
   * four-octet big-endian length; zero means "read the next length"; otherwise
   * read exactly that many octets and post them as one message.  A stream that
   * ends part-way through a length or a payload posts nothing more.
   */
  function ReadFrames(s: Bytes): (r: Received)
    ensures r.end != BadMagic
    decreases |s|
  {
    if |s| < 4 then Received([], EndOfStream)
    else
      var len := DecodeBE32(s[..4]);
      if len >= MAX_FRAME_LENGTH then Received([], LengthOverflow)
      else if len == 0 then ReadFrames(s[4..])
      else if |s| - 4 < len then Received([], EndOfStream)
      else
        var rest := ReadFrames(s[4 + len..]);
        Received([s[4..4 + len]] + rest.posted, rest.end)
  }

  /** The whole receiver loop: the handshake read, then frames. */
  function Receive(s: Bytes): (r: Received)
    ensures (|s| < 4 || s[..4] != EncodeBE32(CLIENT_MAGIC)) ==> r.posted == []
    ensures r.end == BadMagic <==> |s| >= 4 && s[..4] != EncodeBE32(CLIENT_MAGIC)
  {
    if |s| < 4 then Received([], EndOfStream)
    else if DecodeBE32(s[..4]) != CLIENT_MAGIC then
      EncodeDecodeBE32(s[..4]);
      Received([], BadMagic)
    else
      DecodeEncodeBE32(CLIENT_MAGIC);
      ReadFrames(s[4..])
  }

  /**
   * Every posted message is non-empty and shorter than MAX_FRAME_LENGTH octets, and each
   * cost its length plus a four-octet header of the stream.
   */
  lemma {:induction false} ReadFramesBounds(s: Bytes)
    ensures forall i :: 0 <= i < |ReadFrames(s).posted| ==> 0 < |ReadFrames(s).posted[i]| < MAX_FRAME_LENGTH
    ensures TotalLength(ReadFrames(s).posted) + 4 * |ReadFrames(s).posted| <= |s|
    decreases |s|
  {
    if |s| >= 4 {
      var len := DecodeBE32(s[..4]);
      if len == 0 {
        ReadFramesBounds(s[4..]);
      } else if len < MAX_FRAME_LENGTH && |s| - 4 >= len {
        ReadFramesBounds(s[4 + len..]);
      }
    }
  }

  /** A non-empty frame is posted as one message, ahead of whatever follows it. */
  lemma ReadFramesFrame(m: Bytes, rest: Bytes)
    requires 0 < |m| < MAX_FRAME_LENGTH
    ensures ReadFrames(EncodeFrame(m) + rest)
         == Received([m] + ReadFrames(rest).posted, ReadFrames(rest).end)
  {
    var s := EncodeFrame(m) + rest;
    assert s[..4] == EncodeFrame(m)[..4];
    assert s[4..4 + |m|] == m;
    assert s[4 + |m|..] == rest;
  }

  /** A length of 2^31 - 1 or more stops reading: nothing in or after that frame is posted. */
  lemma ReadFramesStopsAtOverflow(len: nat, rest: Bytes)
    requires MAX_FRAME_LENGTH <= len < TWO_TO_THE_32
    ensures ReadFrames(EncodeBE32(len) + rest) == Received([], LengthOverflow)
  {
    var s := EncodeBE32(len) + rest;
    assert s[..4] == EncodeBE32(len);
    DecodeEncodeBE32(len);
  }

  /** A zero-length frame posts nothing and reading carries on. */
  lemma ReadFramesEmptyFrame(rest: Bytes)
    ensures ReadFrames(EncodeFrame([]) + rest) == ReadFrames(rest)
  {
    var s := EncodeFrame([]) + rest;
    assert s[..4] == EncodeFrame([])[..4];
    assert s[4..] == rest;
  }

  lemma {:induction false} ReadFramesEncodeFrames(ms: seq<Bytes>)
    requires forall i :: 0 <= i < |ms| ==> |ms[i]| < MAX_FRAME_LENGTH
    ensures ReadFrames(EncodeFrames(ms)) == Received(NonEmpty(ms), EndOfStream)
  {
    if ms != [] {
      ReadFramesEncodeFrames(ms[1..]);
      if ms[0] == [] {
        ReadFramesEmptyFrame(EncodeFrames(ms[1..]));
      } else {
        ReadFramesFrame(ms[0], EncodeFrames(ms[1..]));
      }
    }
  }

  /**
   * Round trip: a client that sends the client magic and then frames its
   * messages the way the sender loop does gets exactly its non-empty messages
   * posted, in order, and reading stops only at the end of the stream.
   */
  lemma RoundTrip(ms: seq<Bytes>)
    requires forall i :: 0 <= i < |ms| ==> |ms[i]| < MAX_FRAME_LENGTH
    ensures Receive(EncodeBE32(CLIENT_MAGIC) + EncodeFrames(ms)) == Received(NonEmpty(ms), EndOfStream)
  {
    var s := EncodeBE32(CLIENT_MAGIC) + EncodeFrames(ms);
    assert s[..4] == EncodeBE32(CLIENT_MAGIC);
    assert s[4..] == EncodeFrames(ms);
    DecodeEncodeBE32(CLIENT_MAGIC);
    ReadFramesEncodeFrames(ms);
  }

  /**
   * Messages are posted as they complete: what the receiver has posted after
   * the first `k` octets arrived is a prefix of what it posts for the whole stream.
   */
  lemma {:induction false} ReadFramesPrefix(s: Bytes, k: nat)
    requires k <= |s|
    ensures ReadFrames(s[..k]).posted <= ReadFrames(s).posted
    decreases |s|
  {
    var p := s[..k];
    if k >= 4 {
      assert p[..4] == s[..4];
      var len := DecodeBE32(s[..4]);
      if len == 0 {
        ReadFramesPrefixSkip(s, k);
      } else if len < MAX_FRAME_LENGTH && k - 4 >= len {
        ReadFramesPrefixFrame(s, k, len);
      }
    }
  }

  lemma {:induction false} ReadFramesPrefixSkip(s: Bytes, k: nat)
    requires 4 <= k <= |s| && DecodeBE32(s[..4]) == 0
    ensures ReadFrames(s[..k]).posted <= ReadFrames(s).posted
    decreases |s|, 0
  {
    var p := s[..k];
    assert p[..4] == s[..4];
    assert ReadFrames(p) == ReadFrames(p[4..]);
    assert ReadFrames(s) == ReadFrames(s[4..]);
    assert p[4..] == s[4..][..k - 4];
    ReadFramesPrefix(s[4..], k - 4);
  }

  lemma {:induction false} ReadFramesPrefixFrame(s: Bytes, k: nat, len: nat)
    requires 4 <= k <= |s| && len == DecodeBE32(s[..4])
    requires 0 < len < MAX_FRAME_LENGTH && len <= k - 4
    ensures ReadFrames(s[..k]).posted <= ReadFrames(s).posted
    decreases |s|, 0
  {
    var p := s[..k];
    assert p[..4] == s[..4];
    assert p[4..4 + len] == s[4..4 + len];
    assert p[4 + len..] == s[4 + len..][..k - 4 - len];
    var rp, rs := ReadFrames(p[4 + len..]), ReadFrames(s[4 + len..]);
    assert ReadFrames(p).posted == [s[4..4 + len]] + rp.posted;
    assert ReadFrames(s).posted == [s[4..4 + len]] + rs.posted;
    ReadFramesPrefix(s[4 + len..], k - 4 - len);
  }
}

=== FILE: hello_timer.dfy ===
/**
 * The keepalive timer of the external router (ExternalRouter.cc,
 * HelloTimer): started with an interval in seconds, it sends a hello message
 * with the daemon's counters on every firing and schedules itself again,
 * until it is cancelled.
 */
module HelloTimers {
  import opened Wrappers
  import opened Messages
  import opened SharedTimers

  /** The interval, whether the timer holds a reference to itself, and the scheduler's view. */
  datatype HelloTimer = HelloTimer(seconds: nat, selfRef: bool, base: TimerBase)

  const NEW_HELLO_TIMER := HelloTimer(0, false, IDLE)

  datatype Started = Started(timer: HelloTimer, delayMs: nat)

  /** Remember the interval (0 is taken as 1) and the self-reference, and schedule the first firing. */
  function Start(t: HelloTimer, seconds: nat, selfRef: bool): (r: Started)
    ensures r.timer.seconds == (if seconds == 0 then 1 else seconds)
    ensures r.timer.selfRef == selfRef
    ensures r.timer.base.pending && r.timer.base.cancelled == t.base.cancelled
    ensures r.delayMs == MS_PER_SECOND * r.timer.seconds && r.delayMs >= MS_PER_SECOND
  {
    var secs := if seconds == 0 then 1 else seconds;
    Started(HelloTimer(secs, selfRef, Schedule(t.base)), secs * MS_PER_SECOND)
  }

  /** Cancel with the scheduler and drop the self-reference; without a self-reference nothing happens. */
  function Cancel(t: HelloTimer): (r: HelloTimer)
    ensures !r.selfRef
    ensures t.selfRef ==> r.base.cancelled && !r.base.pending
    ensures !t.selfRef ==> r == t
    ensures r.seconds == t.seconds
  {
    if t.selfRef then t.(selfRef := false, base := SharedTimers.Cancel(t.base).timer)
    else t
  }

  datatype Fired = Fired(timer: HelloTimer, sent: seq<ServerMsg>, rescheduleMs: Option<nat>)

  /**
   * A firing: unless the timer was cancelled, send one hello with the
   * counters read at this moment and schedule the next firing with the same interval.
   */
  function Timeout(t: HelloTimer, received: nat, pending: nat): (r: Fired)
    ensures r.timer.seconds == t.seconds && r.timer.selfRef == t.selfRef
    ensures r.timer.base.cancelled == t.base.cancelled
    ensures !t.base.cancelled ==> r.sent == [Hello(received, pending)] && r.rescheduleMs == Some(t.seconds * MS_PER_SECOND)
    ensures t.base.cancelled ==> r.sent == [] && r.rescheduleMs.None? && !r.timer.base.pending
  {
    var fired := Fire(t.base);
    if !fired.cancelled then Fired(t.(base := Schedule(fired)), [Hello(received, pending)], Some(t.seconds * MS_PER_SECOND))
    else Fired(t.(base := fired), [], None)
  }

  /** The daemon's counters as read at each successive firing. */
  datatype Counters = Counters(received: nat, pending: nat)

  /** Fire the timer once per entry of `counters`, collecting what it sends. */
  function FireAll(t: HelloTimer, counters: seq<Counters>): (r: Fired)
    decreases |counters|
  {
    if counters == [] then Fired(t, [], None)
    else
      var first := Timeout(t, counters[0].received, counters[0].pending);
      var rest := FireAll(first.timer, counters[1..]);
      Fired(rest.timer, first.sent + rest.sent, rest.rescheduleMs)
  }

  /** Until cancelled, every firing sends exactly one hello, with that firing's counters. */
  lemma {:induction false} KeepaliveRepeats(t: HelloTimer, counters: seq<Counters>)
    requires !t.base.cancelled
    ensures var r := FireAll(t, counters);
            && |r.sent| == |counters|
            && forall i :: 0 <= i < |counters| ==> r.sent[i] == Hello(counters[i].received, counters[i].pending)
    ensures counters != [] ==> FireAll(t, counters).timer.base.pending
    ensures FireAll(t, counters).timer.selfRef == t.selfRef
    decreases |counters|
  {
    if counters != [] {
      var first := Timeout(t, counters[0].received, counters[0].pending);
      KeepaliveRepeats(first.timer, counters[1..]);
    }
  }

  /** Once cancelled, no number of firings sends anything. */
  lemma {:induction false} SilentAfterCancel(t: HelloTimer, counters: seq<Counters>)
    requires t.base.cancelled
    ensures FireAll(t, counters).sent == []
    decreases |counters|
  {
    if counters != [] {
      var first := Timeout(t, counters[0].received, counters[0].pending);
      SilentAfterCancel(first.timer, counters[1..]);
    }
  }

  /**
   * Keepalive: started, fired twice, cancelled, then fired any number of
   * times — exactly two hellos, carrying the counters of the two firings.
   */
  lemma KeepaliveScenario(seconds: nat, c1: Counters, c2: Counters, later: seq<Counters>)
    ensures var started := Start(NEW_HELLO_TIMER, seconds, true).timer;
            var two := FireAll(started, [c1, c2]);
            var rest := FireAll(Cancel(two.timer), later);
            && two.sent == [Hello(c1.received, c1.pending), Hello(c2.received, c2.pending)]
            && rest.sent == []
  {
    var started := Start(NEW_HELLO_TIMER, seconds, true).timer;
    KeepaliveRepeats(started, [c1, c2]);
    var two := FireAll(started, [c1, c2]);
    SilentAfterCancel(Cancel(two.timer), later);
  }
}

=== FILE: messages.dfy ===
/**
 * Outbound messages from the bridge to the external router, before CBOR
 * encoding, and the bundle and link snapshots they carry.
 */
module Messages {
  import opened Wrappers
  import opened Domain

  /** A copy of a bundle's attributes taken when a message is built. */
  datatype BundleSummary = BundleSummary(
    bundleId: BundleId,
    bpVersion: nat,
    custodyId: nat,
    source: string,
    dest: string,
    gbofId: string,
    prevHop: string,
    length: nat,
    priority: nat,
    custodyRequested: bool,
    /** local custody or custody held for bundle-in-bundle encapsulation */
    localCustody: bool,
    singletonDest: bool,
    /** set only in bundle-received messages */
    expiredInTransit: Option<bool>)

  /** A copy of a link's attributes; the transport fields are set only when known for its family. */
  datatype LinkSummary = LinkSummary(
    linkId: string,
    remoteEid: string,
    convLayer: string,
    linkState: string,
    nextHop: string,
    remoteAddr: Option<nat>,
    remotePort: Option<nat>,
    rate: Option<nat>)

  datatype ServerMsg =
    | Hello(bundlesReceived: nat, bundlesPending: nat)
    | BundleReceivedMsg(linkId: string, bundles: seq<BundleSummary>)
    | BundleTransmittedMsg(linkId: string, bundleId: BundleId, bytesSent: nat)
    | BundleDeliveredMsg(bundleId: BundleId)
    | BundleExpiredMsg(bundleId: BundleId)
    | BundleCancelledMsg(bundleId: BundleId)
    | CustodyTimeoutMsg(bundleId: BundleId)
    | CustodyAcceptedMsg(bundleId: BundleId, custodyId: nat)
    | CustodySignalMsg(bundleId: BundleId, succeeded: bool, reason: int)
    | LinkOpenedMsg(links: seq<LinkSummary>)
    | LinkClosedMsg(linkId: string)
    | LinkAvailableMsg(linkId: string)
    | LinkUnavailableMsg(linkId: string)
    | LinkReportMsg(links: seq<LinkSummary>)
    | BundleReportMsg(bundles: seq<BundleSummary>)
    | AlertMsg(alert: string)
}

=== FILE: reports.dfy ===
/**
 * The report builders and small policy helpers of the external router
 * (ExternalRouter.cc): lowercase, can_delete_bundle, accept_custody,
 * reason_to_str, the bundle and link snapshots, the link report, and the
 * paginated bundle report.
 */
module Reports {
  import opened Wrappers
  import opened Domain
  import opened Messages

  // ---------------------------------------------------------------------
  // lowercase

  predicate IsAsciiUpper(c: char)
  {
    'A' <= c <= 'Z'
  }

  /** `std::tolower` in the "C" locale: only 'A'..'Z' change. */
  function ToLower(c: char): (r: char)
    ensures !IsAsciiUpper(r)
    ensures IsAsciiUpper(c) ==> r as int == c as int + 32
    ensures !IsAsciiUpper(c) ==> r == c
  {
    if IsAsciiUpper(c) then (c as int + 32) as char else c
  }

  function Lowercase(s: string): (r: string)
    ensures |r| == |s|
    ensures forall i :: 0 <= i < |r| ==> !IsAsciiUpper(r[i])
    ensures forall i :: 0 <= i < |s| && !IsAsciiUpper(s[i]) ==> r[i] == s[i]
    ensures forall i :: 0 <= i < |s| && IsAsciiUpper(s[i]) ==> r[i] as int == s[i] as int + 32
  {
    seq(|s|, i requires 0 <= i < |s| => ToLower(s[i]))
  }

  lemma LowercaseIdempotent(s: string)
    ensures Lowercase(Lowercase(s)) == Lowercase(s)
  {
  }

  /** Strings that differ only in the case of ASCII letters lowercase alike. */
  lemma LowercaseIgnoresCase(s: string, t: string)
    requires |s| == |t|
    requires forall i :: 0 <= i < |s| ==> s[i] == t[i] || ToLower(s[i]) == t[i] || s[i] == ToLower(t[i])
    ensures Lowercase(s) == Lowercase(t)
  {
  }

  // ---------------------------------------------------------------------
  // can_delete_bundle, accept_custody

  /**
   * A bundle may be deleted once it was transmitted or delivered, while
   * nobody here holds custody of it and it is not ECOS-critical.
   */
  predicate CanDeleteBundle(b: Bundle)
  {
    if b.transmittedOrDelivered == 0 then false
    else if b.localCustody || b.bibeCustody then false
    else if b.ecosCritical then false
    else true
  }

  lemma CanDeleteBundleGuards(b: Bundle)
    ensures CanDeleteBundle(b) <==>
              b.transmittedOrDelivered > 0 && !(b.localCustody || b.bibeCustody) && !b.ecosCritical
  {
  }

  /** Custody is never accepted on arrival; the external router asks for it instead. */
  function AcceptCustody(b: Bundle): (r: bool)
    ensures !r
  {
    false
  }

  // ---------------------------------------------------------------------
  // reason_to_str

  function ReasonToStr(reason: ContactReason): (r: string)
    ensures r == "" <==> reason.OtherReason?
    ensures !reason.OtherReason? ==> ReasonFromStr(r) == Some(reason)
  {
    match reason
    case NoInfo => "no_info"
    case User => "user"
    case Shutdown => "shutdown"
    case Broken => "broken"
    case ClError => "cl_error"
    case ClVersion => "cl_version"
    case Reconnect => "reconnect"
    case Idle => "idle"
    case Timeout => "timeout"
    case OtherReason(_) => ""
  }

  /** The reason a name stands for. */
  function ReasonFromStr(s: string): Option<ContactReason>
  {
    if s == "no_info" then Some(NoInfo)
    else if s == "user" then Some(User)
    else if s == "shutdown" then Some(Shutdown)
    else if s == "broken" then Some(Broken)
    else if s == "cl_error" then Some(ClError)
    else if s == "cl_version" then Some(ClVersion)
    else if s == "reconnect" then Some(Reconnect)
    else if s == "idle" then Some(Idle)
    else if s == "timeout" then Some(Timeout)
    else None
  }

  /** Distinct named reasons have distinct names. */
  lemma ReasonNamesDistinct(a: ContactReason, b: ContactReason)
    requires !a.OtherReason? && !b.OtherReason? && a != b
    ensures ReasonToStr(a) != ReasonToStr(b)
  {
  }

  // ---------------------------------------------------------------------
  // Snapshots

  /** The bundle attributes copied into every bundle message. */
  function SummarizeBundle(b: Bundle, expiredInTransit: Option<bool>): (r: BundleSummary)
    ensures r.bundleId == b.id && r.expiredInTransit == expiredInTransit
    ensures r.localCustody <==> b.localCustody || b.bibeCustody
  {
    BundleSummary(b.id, b.bpVersion, b.custodyId, b.source, b.dest, b.gbofId, b.prevHop,
                  b.durableSize, b.priority, b.custodyRequested,
                  b.localCustody || b.bibeCustody, b.singletonDest, expiredInTransit)
  }

  /** The transport family names whose parameters the bridge knows how to read. */
  predicate HasAddress(l: Link)
  {
    || (l.clName == "tcp" && l.clInfo.TcpLinkParams?)
    || (l.clName == "udp" && l.clInfo.UdpParams?)
    || (l.clName == "ltpudp" && l.clInfo.LtpUdpParams?)
  }

  predicate HasRate(l: Link)
  {
    || (l.clName == "udp" && l.clInfo.UdpParams?)
    || (l.clName == "ltpudp" && l.clInfo.LtpUdpParams?)
  }

  /**
   * The link attributes copied into link messages.  The remote address and
   * port come from the convergence-layer parameters only when the family name
   * is tcp, udp or ltpudp and the parameters really are of that family; the
   * rate only for udp and ltpudp.
   */
  function SummarizeLink(l: Link): (r: LinkSummary)
    ensures r.linkId == l.name && r.remoteEid == l.remoteEid && r.convLayer == l.clName && r.nextHop == l.nextHop
    ensures r.linkState == Lowercase(l.stateName)
    ensures r.remoteAddr.Some? <==> HasAddress(l)
    ensures r.remotePort.Some? <==> HasAddress(l)
    ensures r.rate.Some? <==> HasRate(l)
    ensures HasAddress(l) ==> r.remoteAddr == Some(l.clInfo.remoteAddr) && r.remotePort == Some(l.clInfo.remotePort)
    ensures HasRate(l) ==> r.rate == Some(l.clInfo.rate)
  {
    var common := LinkSummary(l.name, l.remoteEid, l.clName, Lowercase(l.stateName), l.nextHop, None, None, None);
    if l.clName == "tcp" then
      match l.clInfo
      case TcpLinkParams(addr, port) => common.(remoteAddr := Some(addr), remotePort := Some(port))
      case _ => common
    else if l.clName == "udp" then
      match l.clInfo
      case UdpParams(addr, port, rate) => common.(remoteAddr := Some(addr), remotePort := Some(port), rate := Some(rate))
      case _ => common
    else if l.clName == "ltpudp" then
      match l.clInfo
      case LtpUdpParams(addr, port, rate) => common.(remoteAddr := Some(addr), remotePort := Some(port), rate := Some(rate))
      case _ => common
    else common
  }

  // ---------------------------------------------------------------------
  // Link report

  /** The links with a contact, in contact-manager order. */
  function WithContact(links: seq<Link>): (r: seq<Link>)
    ensures |r| <= |links|
    ensures forall j :: 0 <= j < |r| ==> r[j].hasContact
    ensures forall l :: l in r <==> l in links && l.hasContact
  {
    if links == [] then []
    else if links[0].hasContact then [links[0]] + WithContact(links[1..])
    else WithContact(links[1..])
  }

  /**
   * The entries of the link report: one summary per link that has a contact,
   * in contact-manager order; links without a contact are skipped.
   */
  function LinkEntries(links: seq<Link>): (r: seq<LinkSummary>)
    ensures |r| == |WithContact(links)|
    ensures forall j :: 0 <= j < |r| ==> r[j] == SummarizeLink(WithContact(links)[j])
  {
    if links == [] then []
    else if links[0].hasContact then [SummarizeLink(links[0])] + LinkEntries(links[1..])
    else LinkEntries(links[1..])
  }

  // ---------------------------------------------------------------------
  // Bundle report

  /** At most this many bundles go into one bundle report message. */
  const REPORT_CHUNK: nat := 10000

  function Flatten<T>(xss: seq<seq<T>>): seq<T>
  {
    if xss == [] then [] else xss[0] + Flatten(xss[1..])
  }

  /**
   * Split `xs` into consecutive chunks of REPORT_CHUNK elements, the last
   * possibly shorter; no chunk is empty, so an empty input gives no chunks.
   */
  function Paginate<T>(xs: seq<T>): (r: seq<seq<T>>)
    ensures Flatten(r) == xs
    ensures forall i :: 0 <= i < |r| ==> 0 < |r[i]| <= REPORT_CHUNK
    ensures forall i :: 0 <= i < |r| - 1 ==> |r[i]| == REPORT_CHUNK
    ensures |r| == (|xs| + REPORT_CHUNK - 1) / REPORT_CHUNK
    decreases |xs|
  {
    if xs == [] then []
    else
      var k := if |xs| < REPORT_CHUNK then |xs| else REPORT_CHUNK;
      var rest := Paginate(xs[k..]);
      assert xs[..k] + xs[k..] == xs;
      [xs[..k]] + rest
  }

  /** The pending bundles' summaries in storage order. */
  function PendingSummaries(pending: seq<Bundle>): (r: seq<BundleSummary>)
    ensures |r| == |pending|
    ensures forall i :: 0 <= i < |r| ==> r[i] == SummarizeBundle(pending[i], None)
  {
    seq(|pending|, i requires 0 <= i < |pending| => SummarizeBundle(pending[i], None))
  }

  /**
   * The bundle report: the pending bundles walked in storage order and sent
   * in messages of at most REPORT_CHUNK summaries; no pending bundles, no message.
   */
  function BundleReport(pending: seq<Bundle>): (r: seq<ServerMsg>)
    ensures |r| == (|pending| + REPORT_CHUNK - 1) / REPORT_CHUNK
    ensures pending == [] ==> r == []
    ensures forall i :: 0 <= i < |r| ==> r[i].BundleReportMsg? && 0 < |r[i].bundles| <= REPORT_CHUNK
    ensures Flatten(seq(|r|, i requires 0 <= i < |r| => r[i].bundles)) == PendingSummaries(pending)
  {
    var chunks := Paginate(PendingSummaries(pending));
    var r := seq(|chunks|, i requires 0 <= i < |chunks| => BundleReportMsg(chunks[i]));
    assert seq(|r|, i requires 0 <= i < |r| => r[i].bundles) == chunks;
    r
  }
}

=== FILE: send_queue.dfy ===
/**
 * The per-connection send side: the byte-counted queue of outbound messages
 * (ExternalRouter.cc, TcpSender::post and the decrement in TcpSender::run),
 * the sender loop that writes the server magic and then one frame per queued
 * message, and the connection's gate in front of the queue
 * (TcpConnection::post_to_send).
 */
module SendQueues {
  import opened Wrappers
  import opened Bytes
  import opened Framing

  /** The byte counters are `size_t`: additions and subtractions wrap modulo 2^64. */
  const SIZE_T_MODULUS: nat := 0x1_0000_0000_0000_0000

  /** Queued messages in FIFO order, the running byte total and the diagnostic "maximum". */
  datatype SendQueue = SendQueue(pending: seq<Bytes>, bytes: nat, bytesMax: nat)

  /** The byte counter is the total length of the queued messages, as a `size_t`. */
  ghost predicate Counted(q: SendQueue)
  {
    q.bytes == TotalLength(q.pending) % SIZE_T_MODULUS
  }

  /** Adding to a wrapped counter is adding before wrapping. */
  lemma WrapAdd(a: int, b: int)
    ensures (a % SIZE_T_MODULUS + b) % SIZE_T_MODULUS == (a + b) % SIZE_T_MODULUS
  {
    var k := a / SIZE_T_MODULUS;
    assert a == SIZE_T_MODULUS * k + a % SIZE_T_MODULUS;
  }

  lemma {:induction false} TotalLengthAppend(ms: seq<Bytes>, m: Bytes)
    ensures TotalLength(ms + [m]) == TotalLength(ms) + |m|
  {
    if ms != [] {
      assert (ms + [m])[1..] == ms[1..] + [m];
      TotalLengthAppend(ms[1..], m);
    }
  }

  /** Enqueue one message and add its length to the counter. */
  function Post(q: SendQueue, m: Bytes): (r: SendQueue)
    ensures r.pending == q.pending + [m]
    ensures Counted(q) ==> Counted(r)
  {
    var bytes := (q.bytes + |m|) % SIZE_T_MODULUS;
    var bytesMax := if bytes > q.bytesMax then (q.bytesMax + bytes) % SIZE_T_MODULUS else q.bytesMax;
    TotalLengthAppend(q.pending, m);
    WrapAdd(TotalLength(q.pending), |m|);
    SendQueue(q.pending + [m], bytes, bytesMax)
  }

  /** What one pass of the sender loop leaves behind after writing a message. */
  datatype Sent = Sent(queue: SendQueue, written: Bytes)

  /**
   * One pass of the sender loop that finds a message: pop the oldest, write
   * its length and payload, subtract its length from the counter.  An empty
   * queue gives nothing to do.
   */
  function SendNext(q: SendQueue): (r: Option<Sent>)
    ensures r.None? <==> q.pending == []
    ensures r.Some? ==> [q.pending[0]] + r.value.queue.pending == q.pending
    ensures r.Some? ==> r.value.written == EncodeFrame(q.pending[0])
    ensures r.Some? && Counted(q) ==> Counted(r.value.queue)
  {
    if q.pending == [] then None
    else
      var m := q.pending[0];
      var bytes := (q.bytes - |m|) % SIZE_T_MODULUS;
      WrapAdd(TotalLength(q.pending), -|m|);
      assert [m] + q.pending[1..] == q.pending;
      Some(Sent(SendQueue(q.pending[1..], bytes, q.bytesMax), EncodeFrame(m)))
  }

  /**
   * The sender loop from its start until the queue is empty: the server magic
   * first, then one frame per message in queue order; the counter returns to zero.
   */
  method Flush(q: SendQueue) returns (out: Bytes, rest: SendQueue)
    requires Counted(q)
    ensures out == EncodeBE32(SERVER_MAGIC) + EncodeFrames(q.pending)
    ensures rest.pending == [] && rest.bytes == 0
  {
    out := EncodeBE32(SERVER_MAGIC);
    rest := q;
    while rest.pending != []
      invariant Counted(rest)
      invariant out + EncodeFrames(rest.pending) == EncodeBE32(SERVER_MAGIC) + EncodeFrames(q.pending)
      decreases |rest.pending|
    {
      var sent := SendNext(rest);
      assert EncodeFrames(rest.pending) == sent.value.written + EncodeFrames(sent.value.queue.pending);
      out := out + sent.value.written;
      rest := sent.value.queue;
    }
  }

  /** Operations on one connection's queue, as the producers and the sender loop issue them. */
  datatype QueueOp = Enqueue(message: Bytes) | SendOne

  /** Apply `ops` in order, collecting every byte the sender loop writes after the magic. */
  function Replay(q: SendQueue, ops: seq<QueueOp>): (r: Sent)
    decreases |ops|
  {
    if ops == [] then Sent(q, [])
    else match ops[0]
      case Enqueue(m) => Replay(Post(q, m), ops[1..])
      case SendOne =>
        match SendNext(q)
        case None => Replay(q, ops[1..])
        case Some(s) =>
          var r := Replay(s.queue, ops[1..]);
          Sent(r.queue, s.written + r.written)
  }

  /** The messages `ops` enqueues, in order. */
  function Enqueued(ops: seq<QueueOp>): seq<Bytes>
  {
    if ops == [] then []
    else if ops[0].Enqueue? then [ops[0].message] + Enqueued(ops[1..])
    else Enqueued(ops[1..])
  }

  /**
   * FIFO: whatever the interleaving, the bytes written so far followed by the
   * frames still queued are the frames of everything queued, in queue order,
   * and the counter still equals the queued length.
   */
  lemma {:induction false} ReplayFifo(q: SendQueue, ops: seq<QueueOp>)
    requires Counted(q)
    ensures Counted(Replay(q, ops).queue)
    ensures Replay(q, ops).written + EncodeFrames(Replay(q, ops).queue.pending)
         == EncodeFrames(q.pending + Enqueued(ops))
    decreases |ops|
  {
    if ops == [] {
      assert q.pending + [] == q.pending;
    } else if ops[0].Enqueue? {
      ReplayFifoEnqueue(q, ops);
    } else if q.pending == [] {
      ReplayFifo(q, ops[1..]);
    } else {
      ReplayFifoSend(q, ops);
    }
  }

  lemma {:induction false} ReplayFifoEnqueue(q: SendQueue, ops: seq<QueueOp>)
    requires Counted(q) && ops != [] && ops[0].Enqueue?
    ensures Counted(Replay(q, ops).queue)
    ensures Replay(q, ops).written + EncodeFrames(Replay(q, ops).queue.pending)
         == EncodeFrames(q.pending + Enqueued(ops))
    decreases |ops|, 0
  {
    var m := ops[0].message;
    assert Replay(q, ops) == Replay(Post(q, m), ops[1..]);
    assert Enqueued(ops) == [m] + Enqueued(ops[1..]);
    assert q.pending + Enqueued(ops) == (q.pending + [m]) + Enqueued(ops[1..]);
    ReplayFifo(Post(q, m), ops[1..]);
  }

  lemma {:induction false} ReplayFifoSend(q: SendQueue, ops: seq<QueueOp>)
    requires Counted(q) && ops != [] && ops[0].SendOne? && q.pending != []
    ensures Counted(Replay(q, ops).queue)
    ensures Replay(q, ops).written + EncodeFrames(Replay(q, ops).queue.pending)
         == EncodeFrames(q.pending + Enqueued(ops))
    decreases |ops|, 0
  {
    var s := SendNext(q).value;
    var r := Replay(s.queue, ops[1..]);
    assert Replay(q, ops) == Sent(r.queue, s.written + r.written);
    assert Enqueued(ops) == Enqueued(ops[1..]);
    ReplayFifo(s.queue, ops[1..]);
    var tail := s.queue.pending + Enqueued(ops[1..]);
    assert q.pending + Enqueued(ops) == [q.pending[0]] + tail;
    EncodeFramesCons(q.pending[0], tail);
    assert s.written == EncodeFrame(q.pending[0]);
    calc {
      Replay(q, ops).written + EncodeFrames(Replay(q, ops).queue.pending);
      (s.written + r.written) + EncodeFrames(r.queue.pending);
      { assert (s.written + r.written) + EncodeFrames(r.queue.pending)
            == s.written + (r.written + EncodeFrames(r.queue.pending)); }
      s.written + (r.written + EncodeFrames(r.queue.pending));
      EncodeFrame(q.pending[0]) + EncodeFrames(tail);
      EncodeFrames([q.pending[0]] + tail);
      EncodeFrames(q.pending + Enqueued(ops));
    }
  }

  lemma EncodeFramesCons(m: Bytes, ms: seq<Bytes>)
    ensures EncodeFrames([m] + ms) == EncodeFrame(m) + EncodeFrames(ms)
  {
    assert ([m] + ms)[1..] == ms;
  }

  /** A connection as its senders see it: whether it is stopping, and its sender's queue once started. */
  datatype Connection = Connection(stopping: bool, sender: Option<SendQueue>)

  /**
   * Hand a message to a connection: queued only while the connection is not
   * stopping and its sender exists; otherwise the message is deleted.
   */
  function ConnectionPost(c: Connection, m: Bytes): (r: Connection)
    ensures r.stopping == c.stopping && r.sender.Some? == c.sender.Some?
    ensures !c.stopping && c.sender.Some? ==> r.sender.value.pending == c.sender.value.pending + [m]
    ensures c.stopping || c.sender.None? ==> r == c
  {
    if !c.stopping && c.sender.Some? then Connection(c.stopping, Some(Post(c.sender.value, m)))
    else c
  }
}

=== FILE: shared_timers.dfy ===
/**
 * The scheduler's view of a timer (oasys::SharedTimer), reduced to two
 * flags: whether a firing is pending and whether the timer was cancelled.
 * The timer queue itself, clocks and threads are not modelled.
 */
module SharedTimers {

  datatype TimerBase = TimerBase(pending: bool, cancelled: bool)

  const IDLE := TimerBase(false, false)

  /** `schedule_in` takes its delay in milliseconds. */
  const MS_PER_SECOND: nat := 1000

  /** `schedule_in`: a firing becomes pending. */
  function Schedule(t: TimerBase): (r: TimerBase)
    ensures r.pending && r.cancelled == t.cancelled
  {
    t.(pending := true)
  }

  datatype Cancelled = Cancelled(timer: TimerBase, wasPending: bool)

  /** `SharedTimer::cancel`: the timer is marked cancelled; the answer says whether a firing was pending. */
  function Cancel(t: TimerBase): (r: Cancelled)
    ensures r.timer.cancelled && !r.timer.pending
    ensures r.wasPending == t.pending
  {
    Cancelled(TimerBase(false, true), t.pending)
  }

  /** The scheduler takes the pending firing off its queue and calls `timeout`. */
  function Fire(t: TimerBase): (r: TimerBase)
    ensures !r.pending && r.cancelled == t.cancelled
  {
    t.(pending := false)
  }
}

=== FILE: wrappers.dfy ===
/** Optional values, used where the source works with a pointer that may be null. */
module Wrappers {

  datatype Option<+T> = None | Some(value: T)
}
